=== FILE: README.md ===
# Coroutine-aware child reaping and listening-port configuration

This project models two parts of Swoole.

**Child reaping (`src/os/wait.cc`).** Swoole offers a coroutine version of `wait`/`waitpid`. The call looks synchronous but suspends only its own coroutine. The process-wide bookkeeping has three parts:

- `wait_list`: a FIFO of coroutines waiting for any child;
- `waitpid_map`: coroutines waiting for one pid;
- `child_processes`: a reap cache holding the statuses of children that nobody was waiting for.

The SIGCHLD handler drains every exited child with non-blocking reaps. It hands each child to:

1. the targeted waiter for that pid, else
2. the oldest wildcard waiter, else
3. the cache.

A call is served from the cache when it can. Without a reactor or coroutine, or with `WNOHANG`, it goes straight to the operating system. Otherwise it installs the handler once, probes with one non-blocking reap, and only then registers itself and suspends. When the coroutine is resumed it deregisters itself and reports either the child it received or a timeout.

**Listening-port settings (`ext-src/swoole_server_port.cc`).** This part covers three operations:

- `Port::set` normalises an option array into the port's configuration. Integers are clamped and socket buffer sizes are substituted. `open_tcp_nodelay` defaults to on. Some flags imply others. Five checks are fatal.
- `Port::on` registers an event callback, matching the event name without regard to case, and installs the server's own hook for five events.
- `Port::getCallback` returns the registered value for a name, lower-casing the name first.

The modules follow the source:

- `Wrappers`: `Option` and `Result`;
- `WaitRegistry`: the bookkeeping and its invariant;
- `Reaper`: the signal handler;
- `WaitProtocol`: the caller side, the handler installation, `waitpid_safe`'s bypass and the EINTR retry of `swoole_waitpid`;
- `PortOptions`: `set`;
- `PortEvents`: the event table, `on` and `getCallback`.

Inputs the code cannot compute are parameters:

- every reply of `::waitpid` and of the non-blocking reap;
- whether the coroutine timed out;
- the element `unordered_map::begin()` yields;
- the PHP engine's string-to-integer and size parsers;
- the byte size of a `pack()` letter;
- whether a value is callable;
- `SW_IPC_BUFFER_SIZE` and `SW_DATA_EOF_MAXLEN`.

Behaviour of the code that is easy to get wrong:

- A wildcard call served from the cache takes the entry `unordered_map::begin()` yields. This is an unspecified element, not the oldest one, so the model takes it as the `pick` parameter.
- A resumed call sets `ETIMEDOUT` only when the coroutine really timed out. Any other resumption without a child returns -1 and leaves errno alone.
- The handler resumes the chosen coroutine synchronously, and that coroutine dequeues itself before the next child is reaped. The model treats the hand-over and the dequeue as one step (`Reaper.Route`).
- The handler's loop (lines 50-70) is not atomic: the resume at line 68 runs the woken coroutine, which may call `waitpid` again before the loop reaps the next child. `Reaper.Drain` runs the loop as one step; `Reaper.DrainComposes` shows that a drain interrupted between two children has the same effect on the bookkeeping as two drains run one after the other, so a call made in between acts on the state the first part left.
- `waitpid(0, …)` registers a targeted waiter under key 0. The handler only ever routes the positive pids it reaps, so nothing ever wakes that waiter (`Reaper.DrainNeverWakesPidZero`).

## Model

| member | source | states |
|---|---|---|
| WaitRegistry.InitialInv | src/os/wait.cc:39-43 | The initial state, with empty registries, an empty cache and no handler, satisfies the bookkeeping invariant and has no suspended waiter. |
| WaitRegistry.WaitCount | src/os/wait.cc:180-182 | The pending-wait count is zero exactly when both the wildcard list and the pid map are empty. |
| WaitRegistry.CanExitIffNoWaiter | src/os/wait.cc:78-80 | The reactor exit condition holds exactly when no coroutine is suspended in a wait. |
| WaitRegistry.WaitCountIsSuspendedWaiters | src/os/wait.cc:180-182 | Under the invariant, the count equals the number of distinct suspended coroutines: no coroutine is counted twice and none is missed. |
| WaitRegistry.RemoveAll | src/os/wait.cc:162 | List removal by identity: afterwards the task is absent, every other task is present exactly when it was before, and a list without the task is unchanged. |
| WaitRegistry.RemoveAllAtUniqueIndex | src/os/wait.cc:162 | On a duplicate-free list, removing a task deletes exactly the one position holding it and keeps the order of the rest. |
| WaitRegistry.PopFrontIsRemoveFront | src/os/wait.cc:157-163 | On a duplicate-free list, popping the front equals removing the front task by identity, so both dequeue paths agree for the front waiter. |
| WaitRegistry.RemoveAllKeepsNoDup | src/os/wait.cc:162 | Removal keeps a list free of duplicates. |
| WaitRegistry.Dequeue | src/os/wait.cc:156-166 | What a resumed call removes. A wildcard waiter that received a child drops the list front. One that did not is removed by identity, with every other waiter kept. A targeted waiter erases exactly its pid key. The cache and the handler flag are untouched. |
| Reaper.Route | src/os/wait.cc:56-69 | Routing one reaped child. It goes to the targeted waiter exactly when its pid is in the map; else to the front wildcard waiter exactly when the list is non-empty; else to the cache under its pid. The woken waiter leaves its registry, nothing else changes, and the wait count drops by one exactly when a waiter was woken. |
| Reaper.EraseTargetedKeepsInv | src/os/wait.cc:57-58 | Waking the targeted waiter of a pid keeps the invariant and removes exactly that waiter from the registered set. |
| Reaper.PopWildcardKeepsInv | src/os/wait.cc:59-60 | Waking the front wildcard waiter keeps the invariant and removes exactly that waiter. |
| Reaper.RouteKeepsInv | src/os/wait.cc:56-69 | Routing keeps the invariant. A woken waiter was registered before and is the only one to leave; a cached child leaves the registered set unchanged. |
| Reaper.Reaped | src/os/wait.cc:50-54 | The reaps the drain consumes are the longest prefix of positive pids; the first non-positive answer ends the loop. |
| Reaper.Drain | src/os/wait.cc:50-70 | One delivery per reaped child, in reaping order, carrying that child's pid and status; the handler flag is untouched. |
| Reaper.DrainComposes | src/os/wait.cc:50-70 | Draining the children of one signal in two parts, with the first part fully reaped, gives the same bookkeeping and the same deliveries, in order, as draining them at once. |
| Reaper.SignalHandler | src/os/wait.cc:45-71 | A signal other than SIGCHLD changes nothing. SIGCHLD delivers every reaped child in order. |
| Reaper.DrainKeepsInv | src/os/wait.cc:50-70 | A whole drain, however many deaths one signal stands for, keeps the invariant. |
| Reaper.DrainPartitionsWaiters | src/os/wait.cc:50-70 | The waiters registered before a drain split exactly into those it woke and those still registered after it; the two parts are disjoint. |
| Reaper.DrainWakesEachWaiterOnce | src/os/wait.cc:50-70 | No waiter is woken twice by one drain. |
| Reaper.DrainServesWildcardsInOrder | src/os/wait.cc:59-60 | Strict FIFO: the wildcard waiters a drain serves are exactly the oldest k, in registration order, and the remaining list is the rest, in order. |
| Reaper.DrainTargetedPriority | src/os/wait.cc:57-60 | A targeted delivery went to the waiter registered for that pid before the drain. The first reaped death of a pid with a targeted waiter goes to that waiter, even when wildcard waiters are pending. |
| Reaper.DrainCountsWakeups | src/os/wait.cc:56-69 | Conservation: the wait count after a drain plus the number of waiters woken equals the count before. |
| Reaper.DrainCachesUnclaimed | src/os/wait.cc:61-62 | The cache gains exactly the pids of the reaped children that found no waiter. |
| Reaper.DrainCachesStatuses | src/os/wait.cc:61-62 | The cache holds reaped statuses: a pid a drain cached maps to the status of its last cached death, and every pid it did not cache keeps the entry it had. |
| Reaper.DrainWithoutWaitersCachesAll | src/os/wait.cc:61-62 | With no waiter registered, every reaped child goes to the cache, the registries stay empty, no earlier entry is lost, and each reaped pid maps to the status of its latest death. |
| Reaper.DrainNeverWakesPidZero | src/os/wait.cc:52-58 | A targeted waiter for pid 0 is never woken by the handler and keeps its slot. |
| Reaper.TwoWildcardWaitersServedInOrder | src/os/wait.cc:59-60 | Two wildcard waiters and two deaths in one signal: the older waiter gets the first child reaped, the younger the second. |
| Reaper.OneWaiterTwoDeaths | src/os/wait.cc:59-62 | One wildcard waiter and two coalesced deaths: the waiter gets the first, and the second lands in the cache for a later call. |
| WaitProtocol.SignalInit | src/os/wait.cc:73-89 | The handler, exit condition and destroy hook are installed exactly when the handler is not yet ready. Afterwards it is ready, and the registries and cache are untouched. |
| WaitProtocol.ReactorDestroyed | src/os/wait.cc:82-85 | The destroy hook clears readiness and touches no registry. |
| WaitProtocol.SignalInitInstallsOnce | src/os/wait.cc:73-89 | Any positive number of successive calls installs exactly once from an unready state and never from a ready one. |
| WaitProtocol.ReadyInstallsNothing | src/os/wait.cc:74 | Once ready, no number of calls installs anything. |
| WaitProtocol.DestroyThenInitReinstalls | src/os/wait.cc:73-89 | After the reactor is destroyed, the next call installs again; a second call right after an install does nothing. |
| WaitProtocol.Waitpid | src/os/wait.cc:112-152 | Cache hit: the claimed entry is removed and returned with its status, and nothing else changes. No hit and bypass: the OS answer is returned with no state change. Otherwise the handler is ready before the probe, and a non-zero probe answer is returned unchanged. The call suspends exactly when the cache misses, there is no bypass and the probe returns 0. It then appends itself to the list (any child) or takes the pid's slot (one child). |
| WaitProtocol.Wait | src/os/wait.cc:91-93 | `wait` is a wildcard `waitpid` without WNOHANG. A non-empty cache answers it; it suspends exactly when the cache is empty, the reactor and a coroutine exist and the probe returns 0. |
| WaitProtocol.Finish | src/os/wait.cc:168-176 | A resumed call returns its task's pid. It writes the status exactly when that pid is positive, and sets ETIMEDOUT exactly when the pid is not positive and the coroutine timed out. |
| WaitProtocol.Resolved | src/os/wait.cc:66-68 | A call the handler resumes reports the child's pid and status and sets no errno. |
| WaitProtocol.Wake | src/os/wait.cc:154-176 | A call resumed without a child returns -1, writes no status, and sets ETIMEDOUT exactly when it timed out. The cache is untouched. |
| WaitProtocol.WaitpidKeepsInv | src/os/wait.cc:112-152 | Every call by a coroutine that is not already waiting keeps the invariant, whatever pid, options or answer it has. A suspended call occupies its slot and adds exactly its own coroutine to the registered set. If its pid already had a targeted waiter, that waiter's slot is overwritten (line 151) and it leaves the registered set. A returning call changes no registration. |
| WaitProtocol.WakeRemovesOnlyItself | src/os/wait.cc:156-166 | Deregistration after a timeout removes exactly the caller's own coroutine and keeps the invariant. A wildcard waiter is cut out wherever it stands, not popped from the front, and every other entry is untouched. |
| WaitProtocol.ParkThenTimeoutRestores | src/os/wait.cc:136-166 | A call that suspends and then times out leaves the registries and the cache exactly as it found them. |
| WaitProtocol.RouteResolvesParked | src/os/wait.cc:56-69 | The waiter the handler picks for a child leaves the registries and reports that child. A targeted call only ever receives the pid it asked for, and every other suspended call keeps its slot. |
| WaitProtocol.SecondTargetedWaitOrphansFirst | src/os/wait.cc:151 | A second targeted call on a pid that already has a waiter overwrites the slot. The first waiter is then registered nowhere, and its later timeout erases the second waiter's slot. The invariant holds throughout. |
| WaitProtocol.ClaimedPids | src/os/wait.cc:113-127 | The set of pids a sequence of claims names, with membership in both directions. |
| WaitProtocol.ClaimOne | src/os/wait.cc:113-127 | A call the cache answers returns the claimed child's status and removes exactly that entry. |
| WaitProtocol.ClaimAll | src/os/wait.cc:113-127 | Successive calls that each claim a different cached child each return their child's status, in order, and the cache loses exactly the claimed pids. |
| WaitProtocol.ClaimedPidsCardinality | src/os/wait.cc:113-127 | Claims that name distinct pids name as many pids as there are claims. |
| WaitProtocol.ClaimingEveryEntryEmptiesCache | src/os/wait.cc:113-127 | N calls claiming all N cached children leave the cache empty and the registries untouched. |
| WaitProtocol.WaitpidSafe | src/os/wait.cc:95-98 | `waitpid_safe` forwards to the OS exactly when there is no reactor, no coroutine or WNOHANG. |
| WaitProtocol.SafeAndCoroutineWaitBypassAlike | src/os/wait.cc:96-132 | When the cache does not answer, `waitpid_safe` and `waitpid` bypass under the same condition with the same answer. Otherwise `waitpid` suspends on a zero probe. |
| WaitProtocol.SwooleWaitpid | src/os/wait.cc:193-206 | The retry wrapper returns the first OS answer that is not an EINTR failure, unchanged. Every earlier answer was EINTR, and it retries exactly as many times. |
| PortOptions.Truthy | ext-src/swoole_server_port.cc:311 | PHP truthiness: zero, false, "" and "0" are false, everything else true. |
| PortOptions.StrEmptyIff | ext-src/swoole_server_port.cc:337-340 | A value converts to the empty string exactly when it is "" or false. |
| PortOptions.Clamp | ext-src/swoole_server_port.cc:267 | The clamped value lies in [lo, hi]. It equals the input inside the range and the nearer bound outside. |
| PortOptions.BufferSize | ext-src/swoole_server_port.cc:269-275 | A socket buffer size is a positive `int`. An in-range positive size is kept; a non-positive or oversized one becomes `INT_MAX`. |
| PortOptions.ApplyEof | ext-src/swoole_server_port.cc:325-347 | The EOF stage fails exactly when the marker is empty or too long, reporting which. |
| PortOptions.ApplyFraming | ext-src/swoole_server_port.cc:414-466 | The framing stage fails exactly when the length type is unknown or an offset exceeds the IPC buffer, reporting the first in source order. |
| PortOptions.SetFailsIff | ext-src/swoole_server_port.cc:335-444 | `set` fails exactly when one of its fatal checks rejects the input, and reports the first of them in source order: an empty or too long marker, an unknown length type, a too large length offset, a too large body offset. |
| PortOptions.SetBoundsLimits | ext-src/swoole_server_port.cc:264-466 | Each given limit lands in its range: backlog and heartbeat in [0, 65535], buffers positive `int`s, watermarks and the maximum package length in [0, 2^32-1]. Absent keys keep the old value. |
| PortOptions.SetBufferSizeSubstitutes | ext-src/swoole_server_port.cc:269-275 | A socket buffer size that is positive and fits an `int` is stored as given; any other becomes `INT_MAX`. |
| PortOptions.SetNodelayDefaultsOn | ext-src/swoole_server_port.cc:309-314 | TCP_NODELAY is on unless the key is given, in which case it follows the key's truthiness. |
| PortOptions.SetFlagImplications | ext-src/swoole_server_port.cc:328-377 | Enabling EOF splitting enables the EOF check. Enabling WebSocket or HTTP/2 enables HTTP. |
| PortOptions.SetKeepsCoherent | ext-src/swoole_server_port.cc:325-377 | A call that does not switch the EOF check or HTTP off keeps every implied flag set. |
| PortOptions.SetCanSplitWithoutEofCheck | ext-src/swoole_server_port.cc:325-334 | The implication is enforced only when the implying key is given: switching the EOF check off later leaves splitting on without it. |
| PortOptions.SetStoresPackageEof | ext-src/swoole_server_port.cc:335-347 | An accepted marker is stored with its length, which lies between 1 and the maximum. An absent key keeps the old marker. |
| PortOptions.SetBodyOffsetPrecedence | ext-src/swoole_server_port.cc:436-444 | The body offset comes from `package_body_offset` when given, else from `package_body_start`. It is clamped and at most the IPC buffer size; if neither key is given it is unchanged. |
| PortOptions.SetLengthFuncOverrides | ext-src/swoole_server_port.cc:445-458 | A callable length function replaces the length-field description and makes the server single-threaded. |
| PortOptions.SetStoresLengthType | ext-src/swoole_server_port.cc:418-427 | Without a length function, an accepted length type is stored with its non-zero size. |
| PortOptions.SetEmptyOnlyEnablesNodelay | ext-src/swoole_server_port.cc:245-466 | An empty option array changes nothing except switching TCP_NODELAY on. |
| PortOptions.SetIdempotent | ext-src/swoole_server_port.cc:245-466 | Applying the same options twice gives the same configuration as applying them once. |
| PortEvents.CaselessEqLowerKey | ext-src/swoole_server_port.cc:588 | Comparing a name without case against a lower-case key is the same as comparing the lower-cased name exactly. |
| PortEvents.ScanIsLowerThenFind | ext-src/swoole_server_port.cc:586-638 | On a table of lower-case keys, `on`'s case-blind scan and `getCallback`'s lower-case-then-find select the same entry. |
| PortEvents.EventKeysLower | ext-src/swoole_server_port.cc:33-46 | Every key of the event table is lower-case. |
| PortEvents.EventKeysDistinct | ext-src/swoole_server_port.cc:33-46 | The table's keys are pairwise distinct. |
| PortEvents.EventKindsDistinct | ext-src/swoole_server_port.cc:33-46 | Every callback slot has exactly one entry. |
| PortEvents.AtMostOneMatch | ext-src/swoole_server_port.cc:586-620 | At most one table entry matches a name without case, so the map's iteration order cannot change the result. |
| PortEvents.On | ext-src/swoole_server_port.cc:569-627 | Registration is refused, with no change, once the server has started (except on a worker thread). An unknown name changes nothing and fails. The call succeeds exactly when the name is known and a callable can be created from the value. |
| PortEvents.OnSucceedsInstalls | ext-src/swoole_server_port.cc:602-618 | A successful registration makes the slot own the new callable and adds the server hook exactly for the five hooked events. |
| PortEvents.OnLeavesOthers | ext-src/swoole_server_port.cc:586-620 | A registration changes no other slot and no other property. |
| PortEvents.GetCallback | ext-src/swoole_server_port.cc:629-649 | An unknown name yields null. A known name, after lower-casing, yields the `on<Name>` property of its event, or null when that property is unset. |
| PortEvents.OnThenGetCallback | ext-src/swoole_server_port.cc:594-649 | Round trip: after `on` accepts a name, `getCallback` with any spelling that lower-cases the same returns the value passed. This holds even when no callable could be created, because the property is written first. |
| PortEvents.OnKeepsNoDangling | ext-src/swoole_server_port.cc:598-606 | The corrected registration never leaves a slot pointing at a freed callable and never frees one twice. |
| PortEvents.OnAsWritten | ext-src/swoole_server_port.cc:598-606 | The registration as written succeeds under exactly the same conditions as the corrected one, and a closed server is left untouched. |
| PortEvents.OnAsWrittenDiffersOnlyInFailedSlot | ext-src/swoole_server_port.cc:598-606 | The two versions agree whenever a callable can be created and whenever the name is unknown. Otherwise they return the same result, write the same properties and server, agree on whether a freed callable was freed again, and hold the same callback in every slot but the event's own. There the corrected version leaves the slot empty, and the version as written leaves it pointing at the freed callable unless it was already empty. |
| PortEvents.OnAsWrittenFreesTwice | ext-src/swoole_server_port.cc:598-606 | As written, re-registering a live event with a value that is not callable fails but leaves the slot pointing at the freed callable, and the next registration frees it again; the corrected version does not. |

## Left out

- Operating-system calls (`::waitpid`, `wait_process`, signal installation and clearing) are not modelled as effects. Their answers are parameters, and `SignalInit` records installation as the readiness flag.
- Coroutine suspension, resumption and the timer behind the `timeout` argument are not modelled. A resumption is either a delivery from the handler (`Reaper.Route`) or `WaitProtocol.Wake` with a timed-out flag; timeout values are not modelled.
- `swoole_set_last_error` is not modelled; only errno is.
- WaitProtocol.WaitpidSafe: the polling path of `waitpid_safe` (lines 100-106, `wait_for` with repeated `::waitpid` probes) is left out because it is a timer-driven loop in the coroutine layer; the model states only when the call bypasses.
- The C wrappers `swoole_coroutine_wait` and `swoole_coroutine_waitpid` (lines 184-190) are not modelled: they forward to `wait` and `waitpid` with no timeout, which `WaitProtocol.Wait` and `WaitProtocol.Waitpid` cover.
- WaitProtocol.Waitpid: the status pointer is assumed to be writable. The code writes through it without a null check on a cache hit (lines 117 and 124) and on a delivery (line 170), so a caller passing NULL, as POSIX `wait(NULL)` allows, is not modelled; the same holds for `WaitProtocol.Wait`.
- WaitProtocol.SwooleWaitpid: `swoole_signal_dispatch` and the timer `select` between retries are counted as retry rounds, not modelled, because they run code outside this core.
- Option bits other than `WNOHANG` are forwarded to the OS only by the bypasses (lines 97 and 131) and by the probe (line 138), and there their effect is part of the OS answer. A caller that suspends is served by the handler's `wait_process(-1, WNOHANG)` (line 51), so its other bits, such as `WUNTRACED`, are dropped. The model's options carry only the `WNOHANG` bit.
- Signal numbers: only "SIGCHLD or not" is distinguished.
- `max_idle_time` is not modelled because it is a floating-point option.
- The SSL block of `set` (lines 468 onward), the settings merge and option checks done elsewhere, port-object creation and destruction, and `php_swoole_server_length_func` are not modelled. They are glue around the normalisation or belong to other subsystems.
- PortOptions.Set: option values are modelled as integers, booleans and strings only. A key given as null, a float or an array is not modelled; its conversions are folded into the `Env` oracles.
- PortOptions.Set: a fatal `E_ERROR` ends the request. The model returns `Failure` without the fields written before the error (for example `package_eof_len` at line 338), since the request does not continue. The missing `RETURN_FALSE` after lines 433 and 442 therefore makes no difference.
- PortOptions.Set: `open_redis_protocol` is kept as the integer the call gives; the width of the `ListenPort` field it is written to (line 384) is declared outside `swoole_server_port.cc`, and its truncation is not modelled.
- PortOptions.Set: the package EOF marker is modelled as a string; the `memcpy` into the fixed buffer is not modelled.
- PortOptions.ApplyEof: the marker's length is counted in characters, whereas the program counts bytes (`str_v.len()` at line 338), so a marker with multi-byte UTF-8 characters is measured differently; the narrow width of the `package_eof_len` field is not modelled either. The same holds for the length type: the model takes the first character of `package_length_type`, the program its first byte (line 421).
- PortOptions.ApplyFraming: the length-type letter is the first character of the string, not its first byte (line 421); the two differ only when the first character is not ASCII, and `Env`'s size oracle then sees a character the program never passes.
- PortOptions.SetStoresPackageEof: its bounds on the stored length are in characters, not bytes, for the same reason as `PortOptions.ApplyEof`.
- PortOptions.Set: the freeing of a previous length-function callable (lines 450-452) is not modelled; only the stored value is.
- PortEvents.On: argument-parsing failures (`ZEND_PARSE_PARAMETERS`) and the warning texts are not modelled.
- PortEvents.On: the callable is an opaque value that carries whether a callable can be created from it.
- The third-party curl adapter is not part of this model.

## Findings

| source | as written | input that shows it | evidently intended | confidence | as-written member | corrected member |
|---|---|---|---|---|---|---|
| ext-src/swoole_server_port.cc:598-606 | `on` frees the slot's old callable, then returns false if no callable can be created from the new value, without clearing the slot. The slot keeps pointing at freed memory. | With a callable registered for "connect", call `on("Connect", v)` where `v` is not callable, then `on("connect", f)`: the second call frees the same callable again. Firing the event in between would use it after free. | Clear the slot (or create the new callable before freeing the old one) so that a failed registration leaves it empty. | not executed | PortEvents.OnAsWritten (shown by PortEvents.OnAsWrittenFreesTwice) | PortEvents.On (proved by PortEvents.OnKeepsNoDangling) |

=== FILE: port_events.dfy ===
/**
 * Event-callback registration on a listening port
 * (ext-src/swoole_server_port.cc): the fixed table of event names
 * (lines 33-46), `on` (lines 569-627) and `getCallback` (lines 629-649).
 *
 * `on` compares the given name with every table key ignoring ASCII case;
 * `getCallback` lower-cases the name and looks it up exactly. The callable a
 * script passes is an opaque value here: whether a callable can be created
 * from it is part of the value.
 */
module PortEvents {
  import opened Wrappers

  /** The callback slots of a port, one per event. */
  datatype EventType =
    | OnConnect
    | OnReceive
    | OnClose
    | OnPacket
    | OnBufferFull
    | OnBufferEmpty
    | OnRequest
    | OnHandshake
    | OnBeforeHandshakeResponse
    | OnOpen
    | OnMessage
    | OnDisconnect

  /** A table entry: the lower-case key, the slot, and the canonical name used for the property. */
  datatype PortEvent = PortEvent(key: string, kind: EventType, name: string)

  /** `server_port_event_map`, in declaration order. */
  const EventTable: seq<PortEvent> := [
    PortEvent("connect", OnConnect, "Connect"),
    PortEvent("receive", OnReceive, "Receive"),
    PortEvent("close", OnClose, "Close"),
    PortEvent("packet", OnPacket, "Packet"),
    PortEvent("bufferfull", OnBufferFull, "BufferFull"),
    PortEvent("bufferempty", OnBufferEmpty, "BufferEmpty"),
    PortEvent("request", OnRequest, "Request"),
    PortEvent("handshake", OnHandshake, "Handshake"),
    PortEvent("beforehandshakeresponse", OnBeforeHandshakeResponse, "BeforeHandshakeResponse"),
    PortEvent("open", OnOpen, "Open"),
    PortEvent("message", OnMessage, "Message"),
    PortEvent("disconnect", OnDisconnect, "Disconnect")
  ]

  /** The events for which registering a callback also installs the server's own hook (lines 608-618). */
  const HookedEvents: set<EventType> := {OnConnect, OnPacket, OnClose, OnBufferFull, OnBufferEmpty}

  /** ASCII lower-casing of one character; every other character is unchanged. */
  function Lower(c: char): (r: char)
    ensures 'A' <= c <= 'Z' ==> r as int == c as int + 32
    ensures !('A' <= c <= 'Z') ==> r == c
    ensures !('A' <= r <= 'Z')
  {
    if 'A' <= c <= 'Z' then (c as int + 32) as char else c
  }

  function LowerStr(s: string): (r: string)
    ensures |r| == |s|
    ensures forall i :: 0 <= i < |s| ==> r[i] == Lower(s[i])
  {
    seq(|s|, i requires 0 <= i < |s| => Lower(s[i]))
  }

  /** A string with no upper-case ASCII letter. */
  predicate IsLower(s: string) {
    forall i :: 0 <= i < |s| ==> !('A' <= s[i] <= 'Z')
  }

  /** `swoole_strcaseeq`: equal lengths and equal bytes after ASCII lower-casing. */
  predicate CaselessEq(a: string, b: string) {
    |a| == |b| && forall i :: 0 <= i < |a| ==> Lower(a[i]) == Lower(b[i])
  }

  /** Against a lower-case key, comparing without case is comparing the lower-cased name exactly. */
  lemma CaselessEqLowerKey(name: string, key: string)
    requires IsLower(key)
    ensures CaselessEq(name, key) <==> LowerStr(name) == key
  {
    if CaselessEq(name, key) {
      forall i | 0 <= i < |key|
        ensures LowerStr(name)[i] == key[i]
      {
        assert Lower(key[i]) == key[i];
      }
    }
    if LowerStr(name) == key {
      forall i | 0 <= i < |name|
        ensures Lower(name[i]) == Lower(key[i])
      {
        assert Lower(key[i]) == key[i];
      }
    }
  }

  /** The scan of `on` (lines 586-620): the first entry whose key equals the name ignoring case. */
  function ScanCaseless(table: seq<PortEvent>, name: string): (r: Option<PortEvent>)
    ensures r.Some? ==> r.value in table && CaselessEq(name, r.value.key)
    ensures r.None? ==> forall i :: 0 <= i < |table| ==> !CaselessEq(name, table[i].key)
  {
    if table == [] then None
    else if CaselessEq(name, table[0].key) then Some(table[0])
    else ScanCaseless(table[1..], name)
  }

  /** `unordered_map::find` (line 638): the entry whose key is exactly `key`. */
  function FindExact(table: seq<PortEvent>, key: string): (r: Option<PortEvent>)
    ensures r.Some? ==> r.value in table && r.value.key == key
    ensures r.None? ==> forall i :: 0 <= i < |table| ==> table[i].key != key
  {
    if table == [] then None
    else if table[0].key == key then Some(table[0])
    else FindExact(table[1..], key)
  }

  /**
   * The two lookups agree on any table with lower-case keys: the caseless scan
   * of `on` finds what `getCallback`'s lower-case-then-find finds.
   */
  lemma {:induction false} ScanIsLowerThenFind(table: seq<PortEvent>, name: string)
    requires forall i :: 0 <= i < |table| ==> IsLower(table[i].key)
    ensures ScanCaseless(table, name) == FindExact(table, LowerStr(name))
  {
    if table != [] {
      CaselessEqLowerKey(name, table[0].key);
      ScanIsLowerThenFind(table[1..], name);
    }
  }

  /** The table's keys are lower-case. */
  lemma EventKeysLower()
    ensures forall i :: 0 <= i < |EventTable| ==> IsLower(EventTable[i].key)
  {
  }

  /** The table's keys are pairwise distinct, so the iteration order of the map is irrelevant. */
  lemma EventKeysDistinct()
    ensures forall i, j :: 0 <= i < j < |EventTable| ==> EventTable[i].key != EventTable[j].key
  {
  }

  /** Every slot has exactly one entry. */
  lemma EventKindsDistinct()
    ensures |EventTable| == 12
    ensures forall i, j :: 0 <= i < j < |EventTable| ==> EventTable[i].kind != EventTable[j].kind
  {
  }

  /** With distinct lower-case keys at most one entry matches a name, whatever the scan order. */
  lemma AtMostOneMatch(name: string, i: nat, j: nat)
    requires i < |EventTable| && j < |EventTable|
    requires CaselessEq(name, EventTable[i].key) && CaselessEq(name, EventTable[j].key)
    ensures i == j
  {
    EventKeysLower();
    EventKeysDistinct();
    CaselessEqLowerKey(name, EventTable[i].key);
    CaselessEqLowerKey(name, EventTable[j].key);
  }

  /** A value a script passes as a callback; `callable` tells whether a callable can be created from it. */
  datatype Zval = Null | Value(id: nat, callable: bool)

  /** A callback slot: empty, owning a live callable, or still pointing at a callable already freed. */
  datatype Slot = Empty | Live(cb: Zval) | Dangling

  /** The parts of the server `on` reads and writes: thread role, start state and the installed hooks. */
  datatype Server = Server(isWorkerThread: bool, started: bool, hooks: set<EventType>)

  /** A port object: its `on<Name>` properties, its callback slots and its server. */
  datatype Port = Port(properties: map<string, Zval>, callbacks: map<EventType, Slot>, server: Server)

  function SlotOf(p: Port, t: EventType): Slot {
    if t in p.callbacks then p.callbacks[t] else Empty
  }

  /** The property read by `getCallback`; an unset property reads as null. */
  function PropertyOf(p: Port, prop: string): Zval {
    if prop in p.properties then p.properties[prop] else Null
  }

  /** The property that mirrors an event's callback: "on" followed by the canonical name. */
  function PropertyName(e: PortEvent): string {
    "on" + e.name
  }

  /** Registration is refused once the server has started, except from a worker thread (line 576). */
  predicate RegistrationClosed(s: Server) {
    !s.isWorkerThread && s.started
  }

  /** The result of `on`: the port afterwards, the returned boolean, and whether the call freed an already-freed callable. */
  datatype Registered = Registered(port: Port, ok: bool, freedDangling: bool)

  /**
   * `on` as it should behave: a slot whose old callable was freed is cleared
   * before the call can fail, so it never keeps a freed pointer.
   */
  function On(p: Port, name: string, cb: Zval): (r: Registered)
    ensures RegistrationClosed(p.server) ==> r == Registered(p, false, false)
    ensures ScanCaseless(EventTable, name).None? ==> r.port == p && !r.ok
    ensures r.ok <==> !RegistrationClosed(p.server) && ScanCaseless(EventTable, name).Some? && cb.Value? && cb.callable
  {
    if RegistrationClosed(p.server) then Registered(p, false, false)
    else
      match ScanCaseless(EventTable, name)
      case None => Registered(p, false, false)
      case Some(e) =>
        var props := p.properties[PropertyName(e) := cb];
        var freedDangling := SlotOf(p, e.kind).Dangling?;
        if !(cb.Value? && cb.callable) then
          Registered(Port(props, p.callbacks[e.kind := Empty], p.server), false, freedDangling)
        else
          var hooks := p.server.hooks + ({e.kind} * HookedEvents);
          Registered(Port(props, p.callbacks[e.kind := Live(cb)], p.server.(hooks := hooks)), true, freedDangling)
  }

  /**
   * `on` as written (lines 598-606): the old callable is freed, and when no
   * callable can be created from the new value the call returns false with the
   * slot still pointing at the freed callable.
   */
  function OnAsWritten(p: Port, name: string, cb: Zval): (r: Registered)
    ensures RegistrationClosed(p.server) ==> r == Registered(p, false, false)
    ensures r.ok <==> On(p, name, cb).ok
  {
    if RegistrationClosed(p.server) then Registered(p, false, false)
    else
      match ScanCaseless(EventTable, name)
      case None => Registered(p, false, false)
      case Some(e) =>
        var props := p.properties[PropertyName(e) := cb];
        var prior := SlotOf(p, e.kind);
        var freedDangling := prior.Dangling?;
        if !(cb.Value? && cb.callable) then
          Registered(Port(props, p.callbacks[e.kind := if prior.Empty? then Empty else Dangling], p.server), false, freedDangling)
        else
          var hooks := p.server.hooks + ({e.kind} * HookedEvents);
          Registered(Port(props, p.callbacks[e.kind := Live(cb)], p.server.(hooks := hooks)), true, freedDangling)
  }

  /** `getCallback`: the property of the event the lower-cased name denotes, or null. */
  function GetCallback(p: Port, name: string): (r: Zval)
    ensures FindExact(EventTable, LowerStr(name)).None? ==> r == Null
    ensures FindExact(EventTable, LowerStr(name)).Some? ==>
      r == PropertyOf(p, PropertyName(FindExact(EventTable, LowerStr(name)).value))
  {
    match FindExact(EventTable, LowerStr(name))
    case None => Null
    case Some(e) => PropertyOf(p, PropertyName(e))
  }

  /** No slot points at a freed callable. */
  predicate NoDangling(p: Port) {
    forall t :: t in p.callbacks ==> !p.callbacks[t].Dangling?
  }

  /**
   * Registration round trip: once `on` has accepted the name, `getCallback` with
   * any spelling of it that lower-cases the same returns the value passed, even
   * when no callable could be created from it (the property is written first).
   */
  lemma OnThenGetCallback(p: Port, name: string, cb: Zval, query: string)
    requires !RegistrationClosed(p.server)
    requires ScanCaseless(EventTable, name).Some?
    requires LowerStr(query) == LowerStr(name)
    ensures GetCallback(On(p, name, cb).port, query) == cb
    ensures GetCallback(OnAsWritten(p, name, cb).port, query) == cb
  {
    EventKeysLower();
    ScanIsLowerThenFind(EventTable, name);
  }

  /**
   * A successful registration makes the event's slot own the new callable and
   * installs the server hook exactly for the hooked events.
   */
  lemma OnSucceedsInstalls(p: Port, name: string, cb: Zval)
    requires On(p, name, cb).ok
    ensures var e := ScanCaseless(EventTable, name).value;
      var q := On(p, name, cb).port;
      && SlotOf(q, e.kind) == Live(cb)
      && q.server.hooks == p.server.hooks + (if e.kind in HookedEvents then {e.kind} else {})
  {
  }

  /** Any registration leaves every other slot and every other property as it was. */
  lemma OnLeavesOthers(p: Port, name: string, cb: Zval)
    requires ScanCaseless(EventTable, name).Some?
    ensures var e := ScanCaseless(EventTable, name).value;
      var q := On(p, name, cb).port;
      && (forall t :: t != e.kind ==> SlotOf(q, t) == SlotOf(p, t))
      && (forall prop :: prop != PropertyName(e) ==> PropertyOf(q, prop) == PropertyOf(p, prop))
  {
    var e := ScanCaseless(EventTable, name).value;
    var q := On(p, name, cb).port;
    if !RegistrationClosed(p.server) {
      assert q.callbacks.Keys == p.callbacks.Keys + {e.kind};
      assert q.properties == p.properties[PropertyName(e) := cb];
    }
  }

  /** The corrected registration never leaves a freed callable behind and so never frees one twice. */
  lemma OnKeepsNoDangling(p: Port, name: string, cb: Zval)
    requires NoDangling(p)
    ensures NoDangling(On(p, name, cb).port)
    ensures !On(p, name, cb).freedDangling
  {
    var r := On(p, name, cb);
    if !RegistrationClosed(p.server) && ScanCaseless(EventTable, name).Some? {
      var e := ScanCaseless(EventTable, name).value;
      assert !SlotOf(p, e.kind).Dangling?;
    }
  }

  /** Both versions agree whenever a callable can be created, and on everything but the failed slot otherwise. */
  lemma OnAsWrittenDiffersOnlyInFailedSlot(p: Port, name: string, cb: Zval)
    ensures cb.Value? && cb.callable ==> OnAsWritten(p, name, cb) == On(p, name, cb)
    ensures OnAsWritten(p, name, cb).port.properties == On(p, name, cb).port.properties
    ensures OnAsWritten(p, name, cb).port.server == On(p, name, cb).port.server
    ensures OnAsWritten(p, name, cb).ok == On(p, name, cb).ok
    ensures OnAsWritten(p, name, cb).freedDangling == On(p, name, cb).freedDangling
    ensures ScanCaseless(EventTable, name).None? ==> OnAsWritten(p, name, cb) == On(p, name, cb)
    ensures ScanCaseless(EventTable, name).Some? ==>
      forall t :: t != ScanCaseless(EventTable, name).value.kind ==>
        SlotOf(OnAsWritten(p, name, cb).port, t) == SlotOf(On(p, name, cb).port, t)
    ensures (!RegistrationClosed(p.server) && ScanCaseless(EventTable, name).Some? && !(cb.Value? && cb.callable)) ==>
      var k := ScanCaseless(EventTable, name).value.kind;
      && SlotOf(On(p, name, cb).port, k) == Empty
      && SlotOf(OnAsWritten(p, name, cb).port, k) == (if SlotOf(p, k).Empty? then Empty else Dangling)
  {
  }

  /**
   * The defect as written: re-registering an event with a value that is not
   * callable frees the old callable but keeps the pointer, and the next
   * registration of the same event frees it a second time.
   */
  lemma OnAsWrittenFreesTwice(p: Port, live: Zval, bad: Zval, next: Zval)
    requires !RegistrationClosed(p.server)
    requires SlotOf(p, OnConnect) == Live(live)
    requires bad.Value? && !bad.callable
    ensures var first := OnAsWritten(p, "Connect", bad);
      && !first.ok
      && SlotOf(first.port, OnConnect) == Dangling
      && OnAsWritten(first.port, "connect", next).freedDangling
    ensures !On(On(p, "Connect", bad).port, "connect", next).freedDangling
  {
    assert CaselessEq("Connect", "connect");
    assert ScanCaseless(EventTable, "Connect") == Some(EventTable[0]);
    assert ScanCaseless(EventTable, "connect") == Some(EventTable[0]);
  }
}

=== FILE: port_options.dfy ===
/**
 * The non-SSL part of `Swoole\Server\Port::set` (ext-src/swoole_server_port.cc,
 * lines 245-466): an option array, already split into integers, booleans and
 * strings, is normalised into the listening port's configuration.
 *
 * Keys are examined in the source's fixed order; each present key overwrites its
 * field (after clamping or substitution) and an absent key leaves the field as it
 * was, except `open_tcp_nodelay`, which defaults to on. A fatal error aborts the
 * call, which the model returns as `Failure`.
 *
 * What lies outside this code is a parameter (`Env`): the string-to-integer and
 * size-string conversions of the PHP engine, the byte size of a pack() type
 * letter, whether a value is callable, and two compile-time constants.
 */
module PortOptions {
  import opened Wrappers

  const INT_MIN: int := -0x8000_0000
  const INT_MAX: int := 0x7fff_ffff
  const UINT16_MAX: int := 0xffff
  const UINT32_MAX: int := 0xffff_ffff

  /** An option value as the PHP array holds it. */
  datatype OptionValue = IntVal(i: int) | BoolVal(b: bool) | StrVal(s: string)

  /**
   * The option names `set` reads, in the order it reads them; the constructor
   * `OpenTcpNodelay` stands for the array key "open_tcp_nodelay", and so on.
   * Keys outside this list are not read by the normalisation.
   */
  datatype Key =
    | Backlog
    | SocketBufferSize
    | KernelSocketRecvBufferSize
    | KernelSocketSendBufferSize
    | HeartbeatIdleTime
    | BufferHighWatermark
    | BufferLowWatermark
    | OpenTcpNodelay
    | TcpDeferAccept
    | OpenTcpKeepalive
    | OpenEofCheck
    | OpenEofSplit
    | PackageEof
    | OpenHttpProtocol
    | OpenWebsocketProtocol
    | WebsocketSubprotocol
    | OpenWebsocketCloseFrame
    | OpenWebsocketPingFrame
    | OpenWebsocketPongFrame
    | OpenHttp2Protocol
    | OpenMqttProtocol
    | OpenRedisProtocol
    | TcpKeepidle
    | TcpKeepinterval
    | TcpKeepcount
    | TcpUserTimeout
    | TcpFastopen
    | OpenLengthCheck
    | PackageLengthType
    | PackageLengthOffset
    | PackageBodyOffset
    | PackageBodyStart
    | PackageLengthFunc
    | PackageMaxLength

  type Options = map<Key, OptionValue>

  datatype Env = Env(
    longOfString: string -> int,      // zval_get_long on a string
    sizeOfString: string -> int,      // the size parser on a string such as "2M"
    typeSize: char -> nat,            // swoole_type_size: bytes of a pack() letter, 0 if unknown
    isCallable: OptionValue -> bool,  // whether a callable can be created from the value
    ipcBufferSize: nat,               // SW_IPC_BUFFER_SIZE
    eofMaxLen: nat)                   // SW_DATA_EOF_MAXLEN

  /** Listen-queue, buffer and heartbeat limits (lines 265-308). */
  datatype Limits = Limits(
    backlog: int,
    socketBufferSize: int,
    kernelRecvBufferSize: int,
    kernelSendBufferSize: int,
    heartbeatIdleTime: int,
    bufferHighWatermark: int,
    bufferLowWatermark: int)

  /** TCP socket options (lines 310-323 and 387-410). */
  datatype Tcp = Tcp(
    nodelay: bool,
    deferAccept: int,
    keepalive: bool,
    keepidle: int,
    keepinterval: int,
    keepcount: int,
    userTimeout: int,
    fastopen: bool)

  /** End-of-package framing (lines 325-347). */
  datatype Eof = Eof(check: bool, split: bool, marker: string, markerLen: nat)

  /** Application protocols (lines 348-381). */
  datatype Protocols = Protocols(
    http: bool,
    websocket: bool,
    websocketSubprotocol: string,
    websocketCloseFrame: bool,
    websocketPingFrame: bool,
    websocketPongFrame: bool,
    http2: bool,
    mqtt: bool,
    redis: int)

  /** Length-prefixed framing (lines 411-466). */
  datatype Framing = Framing(
    lengthCheck: bool,
    lengthType: char,
    lengthSize: nat,
    lengthOffset: int,
    bodyOffset: int,
    lengthFunc: Option<OptionValue>,
    maxLength: int)

  /**
   * The configuration `set` writes: the listening port's fields, grouped as the
   * source groups them, and the server's single-thread flag.
   */
  datatype PortConfig = PortConfig(
    limits: Limits,
    tcp: Tcp,
    eof: Eof,
    protocols: Protocols,
    framing: Framing,
    singleThread: bool)

  /** The fatal errors of `set`, each of which ends the call. */
  datatype SetError =
    | EmptyPackageEof
    | PackageEofTooLong
    | UnknownLengthType(letter: char)
    | LengthOffsetTooLarge
    | BodyOffsetTooLarge

  /** PHP truthiness of a value: zero, false, the empty string and "0" are false. */
  function Truthy(v: OptionValue): (r: bool)
    ensures v.BoolVal? ==> r == v.b
    ensures v.IntVal? ==> (r <==> v.i != 0)
    ensures v.StrVal? ==> (r <==> v.s != "" && v.s != "0")
  {
    match v
    case IntVal(i) => i != 0
    case BoolVal(b) => b
    case StrVal(s) => s != "" && s != "0"
  }

  /** `zval_get_long`: booleans become 0 and 1, strings go through the engine's parser. */
  function Long(env: Env, v: OptionValue): int {
    match v
    case IntVal(i) => i
    case BoolVal(b) => if b then 1 else 0
    case StrVal(s) => env.longOfString(s)
  }

  /** The size parser: strings may carry a unit suffix, other values are read as integers. */
  function Size(env: Env, v: OptionValue): int {
    match v
    case StrVal(s) => env.sizeOfString(s)
    case _ => Long(env, v)
  }

  function Digit(d: nat): char
    requires d < 10
  {
    "0123456789"[d]
  }

  function NatToString(n: nat): (r: string)
    ensures r != []
    ensures forall i :: 0 <= i < |r| ==> '0' <= r[i] <= '9'
    decreases n
  {
    if n < 10 then [Digit(n)] else NatToString(n / 10) + [Digit(n % 10)]
  }

  /** String conversion of a value: integers in decimal, true as "1", false as "". */
  function Str(v: OptionValue): string {
    match v
    case IntVal(i) => if i < 0 then "-" + NatToString(-i) else NatToString(i)
    case BoolVal(b) => if b then "1" else ""
    case StrVal(s) => s
  }

  /** Only the empty string and false convert to the empty string. */
  lemma StrEmptyIff(v: OptionValue)
    ensures Str(v) == "" <==> v == StrVal("") || v == BoolVal(false)
  {
  }

  /** `SW_MAX(lo, SW_MIN(v, hi))`. */
  function Clamp(v: int, lo: int, hi: int): (r: int)
    requires lo <= hi
    ensures lo <= r <= hi
    ensures lo <= v <= hi ==> r == v
    ensures v < lo ==> r == lo
    ensures v > hi ==> r == hi
  {
    if v < lo then lo else if v > hi then hi else v
  }

  /** A socket buffer size: clamped into the `int` range, and any non-positive result becomes `INT_MAX`. */
  function BufferSize(v: int): (r: int)
    ensures 0 < r <= INT_MAX
    ensures 0 < v <= INT_MAX ==> r == v
    ensures v <= 0 || v > INT_MAX ==> r == INT_MAX
  {
    var c := Clamp(v, INT_MIN, INT_MAX);
    if c <= 0 then INT_MAX else c
  }

  /** An integer option read with `zval_get_long` and clamped; an absent key keeps `current`. */
  function LongOpt(env: Env, opts: Options, key: Key, lo: int, hi: int, current: int): (r: int)
    requires lo <= hi
    ensures key !in opts ==> r == current
    ensures key in opts ==> lo <= r <= hi
  {
    if key in opts then Clamp(Long(env, opts[key]), lo, hi) else current
  }

  /** A size option read with the size parser and clamped; an absent key keeps `current`. */
  function SizeOpt(env: Env, opts: Options, key: Key, lo: int, hi: int, current: int): (r: int)
    requires lo <= hi
    ensures key !in opts ==> r == current
    ensures key in opts ==> lo <= r <= hi
  {
    if key in opts then Clamp(Size(env, opts[key]), lo, hi) else current
  }

  /** A socket buffer option; an absent key keeps `current`. */
  function BufferOpt(env: Env, opts: Options, key: Key, current: int): (r: int)
    ensures key !in opts ==> r == current
    ensures key in opts ==> 0 < r <= INT_MAX
  {
    if key in opts then BufferSize(Size(env, opts[key])) else current
  }

  /** A boolean option read with PHP truthiness; an absent key keeps `current`. */
  function FlagOpt(opts: Options, key: Key, current: bool): (r: bool)
    ensures key !in opts ==> r == current
    ensures key in opts ==> r == Truthy(opts[key])
  {
    if key in opts then Truthy(opts[key]) else current
  }

  /** Lines 265-308: backlog, socket buffers, heartbeat idle time and the output-buffer watermarks. */
  function ApplyLimits(env: Env, l: Limits, opts: Options): Limits {
    Limits(
      LongOpt(env, opts, Backlog, 0, UINT16_MAX, l.backlog),
      BufferOpt(env, opts, SocketBufferSize, l.socketBufferSize),
      BufferOpt(env, opts, KernelSocketRecvBufferSize, l.kernelRecvBufferSize),
      BufferOpt(env, opts, KernelSocketSendBufferSize, l.kernelSendBufferSize),
      LongOpt(env, opts, HeartbeatIdleTime, 0, UINT16_MAX, l.heartbeatIdleTime),
      SizeOpt(env, opts, BufferHighWatermark, 0, UINT32_MAX, l.bufferHighWatermark),
      SizeOpt(env, opts, BufferLowWatermark, 0, UINT32_MAX, l.bufferLowWatermark))
  }

  /** Lines 310-323 and 387-410: TCP_NODELAY (on unless given), deferred accept, keepalive and fast open. */
  function ApplyTcp(env: Env, t: Tcp, opts: Options): Tcp {
    Tcp(
      FlagOpt(opts, OpenTcpNodelay, true),
      LongOpt(env, opts, TcpDeferAccept, INT_MIN, INT_MAX, t.deferAccept),
      FlagOpt(opts, OpenTcpKeepalive, t.keepalive),
      LongOpt(env, opts, TcpKeepidle, INT_MIN, INT_MAX, t.keepidle),
      LongOpt(env, opts, TcpKeepinterval, INT_MIN, INT_MAX, t.keepinterval),
      LongOpt(env, opts, TcpKeepcount, INT_MIN, INT_MAX, t.keepcount),
      LongOpt(env, opts, TcpUserTimeout, INT_MIN, INT_MAX, t.userTimeout),
      FlagOpt(opts, TcpFastopen, t.fastopen))
  }

  /** A boolean option that is given and true. */
  predicate Enabled(opts: Options, key: Key) {
    key in opts && Truthy(opts[key])
  }

  /** The marker the call asks for is rejected: empty, or longer than `eofMaxLen`. */
  predicate EofRejected(env: Env, opts: Options) {
    PackageEof in opts && (Str(opts[PackageEof]) == [] || |Str(opts[PackageEof])| > env.eofMaxLen)
  }

  /**
   * Lines 325-347: the EOF check and split flags (splitting switches the check
   * on) and the end-of-package marker, which must be non-empty and at most
   * `eofMaxLen` bytes.
   */
  function ApplyEof(env: Env, e: Eof, opts: Options): (r: Result<Eof, SetError>)
    ensures r.Failure? <==> EofRejected(env, opts)
    ensures r.Failure? ==> r.error == (if Str(opts[PackageEof]) == [] then EmptyPackageEof else PackageEofTooLong)
  {
    var check := FlagOpt(opts, OpenEofCheck, e.check);
    var split := FlagOpt(opts, OpenEofSplit, e.split);
    var flagged := e.(check := if Enabled(opts, OpenEofSplit) then true else check, split := split);
    if PackageEof !in opts then Success(flagged)
    else
      var marker := Str(opts[PackageEof]);
      if |marker| == 0 then Failure(EmptyPackageEof)
      else if |marker| > env.eofMaxLen then Failure(PackageEofTooLong)
      else Success(flagged.(marker := marker, markerLen := |marker|))
  }

  /** Lines 348-381: HTTP, WebSocket, HTTP/2, MQTT and Redis; WebSocket and HTTP/2 switch HTTP on. */
  function ApplyProtocols(env: Env, p: Protocols, opts: Options): Protocols {
    var http := FlagOpt(opts, OpenHttpProtocol, p.http);
    var httpAfterWs := if Enabled(opts, OpenWebsocketProtocol) then true else http;
    Protocols(
      if Enabled(opts, OpenHttp2Protocol) then true else httpAfterWs,
      FlagOpt(opts, OpenWebsocketProtocol, p.websocket),
      if WebsocketSubprotocol in opts then Str(opts[WebsocketSubprotocol]) else p.websocketSubprotocol,
      FlagOpt(opts, OpenWebsocketCloseFrame, p.websocketCloseFrame),
      FlagOpt(opts, OpenWebsocketPingFrame, p.websocketPingFrame),
      FlagOpt(opts, OpenWebsocketPongFrame, p.websocketPongFrame),
      FlagOpt(opts, OpenHttp2Protocol, p.http2),
      FlagOpt(opts, OpenMqttProtocol, p.mqtt),
      if OpenRedisProtocol in opts then Long(env, opts[OpenRedisProtocol]) else p.redis)
  }

  /**
   * The first character of a string, or the terminating NUL of an empty one; the
   * program reads the first byte, which differs for a multi-byte first character.
   */
  function FirstChar(s: string): char {
    if s == [] then '\0' else s[0]
  }

  /** The pack() letter the call names, if it names one. */
  function LengthLetter(opts: Options): char
    requires PackageLengthType in opts
  {
    FirstChar(Str(opts[PackageLengthType]))
  }

  /** Which key supplies the body offset: `package_body_offset` wins over its older name `package_body_start`. */
  function BodyKey(opts: Options): Key {
    if PackageBodyOffset in opts then PackageBodyOffset else PackageBodyStart
  }

  predicate LengthTypeRejected(env: Env, opts: Options) {
    PackageLengthType in opts && env.typeSize(LengthLetter(opts)) == 0
  }

  predicate LengthOffsetRejected(env: Env, opts: Options) {
    PackageLengthOffset in opts && Clamp(Long(env, opts[PackageLengthOffset]), 0, UINT16_MAX) > env.ipcBufferSize
  }

  predicate BodyOffsetRejected(env: Env, opts: Options) {
    BodyKey(opts) in opts && Clamp(Long(env, opts[BodyKey(opts)]), 0, UINT16_MAX) > env.ipcBufferSize
  }

  /** The call supplies a length function from which a callable can be created. */
  predicate LengthFuncInstalled(env: Env, opts: Options) {
    PackageLengthFunc in opts && env.isCallable(opts[PackageLengthFunc])
  }

  /**
   * Lines 411-466: the length-check flag; the pack() letter of the length field,
   * which must have a known size; the offsets of the length field and of the
   * body, clamped into [0, 65535] and rejected beyond the IPC buffer size; a
   * callable length function, which replaces the length-field description; and
   * the maximum package length.
   */
  function ApplyFraming(env: Env, f: Framing, opts: Options): (r: Result<Framing, SetError>)
    ensures r.Failure? <==> LengthTypeRejected(env, opts) || LengthOffsetRejected(env, opts) || BodyOffsetRejected(env, opts)
    ensures LengthTypeRejected(env, opts) ==> r == Failure(UnknownLengthType(LengthLetter(opts)))
    ensures !LengthTypeRejected(env, opts) && LengthOffsetRejected(env, opts) ==> r == Failure(LengthOffsetTooLarge)
    ensures !LengthTypeRejected(env, opts) && !LengthOffsetRejected(env, opts) && BodyOffsetRejected(env, opts) ==>
      r == Failure(BodyOffsetTooLarge)
  {
    var f1 := f.(lengthCheck := FlagOpt(opts, OpenLengthCheck, f.lengthCheck));
    var f2 :- if PackageLengthType !in opts then Success(f1)
      else
        var letter := LengthLetter(opts);
        if env.typeSize(letter) == 0 then Failure(UnknownLengthType(letter))
        else Success(f1.(lengthType := letter, lengthSize := env.typeSize(letter)));
    var lengthOffset := LongOpt(env, opts, PackageLengthOffset, 0, UINT16_MAX, f2.lengthOffset);
    var f3 :- if PackageLengthOffset in opts && lengthOffset > env.ipcBufferSize then Failure(LengthOffsetTooLarge)
      else Success(f2.(lengthOffset := lengthOffset));
    var bodyOffset := LongOpt(env, opts, BodyKey(opts), 0, UINT16_MAX, f3.bodyOffset);
    var f4 :- if BodyKey(opts) in opts && bodyOffset > env.ipcBufferSize then Failure(BodyOffsetTooLarge)
      else Success(f3.(bodyOffset := bodyOffset));
    var f5 := if LengthFuncInstalled(env, opts) then
        f4.(lengthFunc := Some(opts[PackageLengthFunc]), lengthSize := 0, lengthType := '\0',
            lengthOffset := env.ipcBufferSize)
      else f4;
    Success(f5.(maxLength := SizeOpt(env, opts, PackageMaxLength, 0, UINT32_MAX, f5.maxLength)))
  }

  /**
   * `set` (lines 245-466 without the SSL block). The groups are written by
   * disjoint keys, so only the order of the fatal checks matters: the marker
   * check (line 335) comes before the framing checks (lines 415-444).
   */
  function Set(env: Env, c: PortConfig, opts: Options): Result<PortConfig, SetError> {
    var eof :- ApplyEof(env, c.eof, opts);
    var framing :- ApplyFraming(env, c.framing, opts);
    Success(PortConfig(
      ApplyLimits(env, c.limits, opts),
      ApplyTcp(env, c.tcp, opts),
      eof,
      ApplyProtocols(env, c.protocols, opts),
      framing,
      c.singleThread || LengthFuncInstalled(env, opts)))
  }

  /**
   * The fatal errors: `set` fails exactly when one of its checks rejects the
   * input, and reports the first of them in source order.
   */
  lemma SetFailsIff(env: Env, c: PortConfig, opts: Options)
    ensures Set(env, c, opts).Failure? <==>
      EofRejected(env, opts) || LengthTypeRejected(env, opts) ||
      LengthOffsetRejected(env, opts) || BodyOffsetRejected(env, opts)
    ensures EofRejected(env, opts) ==>
      Set(env, c, opts) == Failure(if Str(opts[PackageEof]) == [] then EmptyPackageEof else PackageEofTooLong)
    ensures !EofRejected(env, opts) && LengthTypeRejected(env, opts) ==>
      Set(env, c, opts) == Failure(UnknownLengthType(LengthLetter(opts)))
    ensures !EofRejected(env, opts) && !LengthTypeRejected(env, opts) && LengthOffsetRejected(env, opts) ==>
      Set(env, c, opts) == Failure(LengthOffsetTooLarge)
    ensures (!EofRejected(env, opts) && !LengthTypeRejected(env, opts) && !LengthOffsetRejected(env, opts) &&
             BodyOffsetRejected(env, opts)) ==>
      Set(env, c, opts) == Failure(BodyOffsetTooLarge)
  {
  }

  /**
   * The integer limits: backlog and heartbeat idle time end in [0, 65535], the
   * three socket buffers are positive `int`s, the watermarks and the maximum
   * package length lie in [0, 2^32 - 1]; an absent key keeps the old value.
   */
  lemma SetBoundsLimits(env: Env, c: PortConfig, opts: Options)
    requires Set(env, c, opts).Success?
    ensures var l := Set(env, c, opts).value.limits;
      && (Backlog in opts ==> 0 <= l.backlog <= UINT16_MAX)
      && (Backlog !in opts ==> l.backlog == c.limits.backlog)
      && (HeartbeatIdleTime in opts ==> 0 <= l.heartbeatIdleTime <= UINT16_MAX)
      && (HeartbeatIdleTime !in opts ==> l.heartbeatIdleTime == c.limits.heartbeatIdleTime)
      && (SocketBufferSize in opts ==> 0 < l.socketBufferSize <= INT_MAX)
      && (SocketBufferSize !in opts ==> l.socketBufferSize == c.limits.socketBufferSize)
      && (KernelSocketRecvBufferSize in opts ==> 0 < l.kernelRecvBufferSize <= INT_MAX)
      && (KernelSocketRecvBufferSize !in opts ==> l.kernelRecvBufferSize == c.limits.kernelRecvBufferSize)
      && (KernelSocketSendBufferSize in opts ==> 0 < l.kernelSendBufferSize <= INT_MAX)
      && (KernelSocketSendBufferSize !in opts ==> l.kernelSendBufferSize == c.limits.kernelSendBufferSize)
      && (BufferHighWatermark in opts ==> 0 <= l.bufferHighWatermark <= UINT32_MAX)
      && (BufferHighWatermark !in opts ==> l.bufferHighWatermark == c.limits.bufferHighWatermark)
      && (BufferLowWatermark in opts ==> 0 <= l.bufferLowWatermark <= UINT32_MAX)
      && (BufferLowWatermark !in opts ==> l.bufferLowWatermark == c.limits.bufferLowWatermark)
    ensures PackageMaxLength in opts ==> 0 <= Set(env, c, opts).value.framing.maxLength <= UINT32_MAX
    ensures PackageMaxLength !in opts ==> Set(env, c, opts).value.framing.maxLength == c.framing.maxLength
  {
  }

  /** A socket buffer size that is not positive, or does not fit an `int`, is stored as `INT_MAX`. */
  lemma SetBufferSizeSubstitutes(env: Env, c: PortConfig, opts: Options)
    requires Set(env, c, opts).Success?
    requires SocketBufferSize in opts
    ensures var v := Size(env, opts[SocketBufferSize]);
      Set(env, c, opts).value.limits.socketBufferSize == (if 0 < v <= INT_MAX then v else INT_MAX)
  {
  }

  /** TCP_NODELAY is on unless the call gives the key, in which case it follows the key's truthiness. */
  lemma SetNodelayDefaultsOn(env: Env, c: PortConfig, opts: Options)
    requires Set(env, c, opts).Success?
    ensures Set(env, c, opts).value.tcp.nodelay <==> OpenTcpNodelay !in opts || Truthy(opts[OpenTcpNodelay])
  {
    SetParts(env, c, opts);
  }

  lemma SetParts(env: Env, c: PortConfig, opts: Options)
    requires Set(env, c, opts).Success?
    ensures ApplyEof(env, c.eof, opts).Success? && ApplyFraming(env, c.framing, opts).Success?
    ensures Set(env, c, opts).value == PortConfig(
      ApplyLimits(env, c.limits, opts),
      ApplyTcp(env, c.tcp, opts),
      ApplyEof(env, c.eof, opts).value,
      ApplyProtocols(env, c.protocols, opts),
      ApplyFraming(env, c.framing, opts).value,
      c.singleThread || LengthFuncInstalled(env, opts))
  {
  }

  /** Flag implications within one call: EOF splitting forces the EOF check, WebSocket and HTTP/2 force HTTP. */
  lemma SetFlagImplications(env: Env, c: PortConfig, opts: Options)
    requires Set(env, c, opts).Success?
    ensures var r := Set(env, c, opts).value;
      && (Enabled(opts, OpenEofSplit) ==> r.eof.split && r.eof.check)
      && (Enabled(opts, OpenWebsocketProtocol) ==> r.protocols.websocket && r.protocols.http)
      && (Enabled(opts, OpenHttp2Protocol) ==> r.protocols.http2 && r.protocols.http)
  {
  }

  /** A configuration in which every implied flag is set. */
  predicate Coherent(c: PortConfig) {
    && (c.eof.split ==> c.eof.check)
    && (c.protocols.websocket ==> c.protocols.http)
    && (c.protocols.http2 ==> c.protocols.http)
  }

  /** A call that does not switch the EOF check or HTTP off keeps a coherent configuration coherent. */
  lemma SetKeepsCoherent(env: Env, c: PortConfig, opts: Options)
    requires Coherent(c)
    requires Set(env, c, opts).Success?
    requires OpenEofCheck in opts ==> Truthy(opts[OpenEofCheck])
    requires OpenHttpProtocol in opts ==> Truthy(opts[OpenHttpProtocol])
    ensures Coherent(Set(env, c, opts).value)
  {
  }

  /**
   * The implications are enforced only when the implying key is given: a later
   * call that switches the EOF check off leaves splitting on without the check.
   */
  lemma SetCanSplitWithoutEofCheck(env: Env, c: PortConfig)
    requires c.eof.split && c.eof.check
    ensures var r := Set(env, c, map[OpenEofCheck := BoolVal(false)]);
      r.Success? && r.value.eof.split && !r.value.eof.check && !Coherent(r.value)
  {
  }

  /** An accepted marker is stored with its length, which lies in [1, `eofMaxLen`]. */
  lemma SetStoresPackageEof(env: Env, c: PortConfig, opts: Options)
    requires Set(env, c, opts).Success?
    ensures var e := Set(env, c, opts).value.eof;
      && (PackageEof in opts ==> e.marker == Str(opts[PackageEof]) && e.markerLen == |e.marker|)
      && (PackageEof in opts ==> 1 <= e.markerLen <= env.eofMaxLen)
      && (PackageEof !in opts ==> e.marker == c.eof.marker && e.markerLen == c.eof.markerLen)
  {
  }

  /**
   * The body offset comes from `package_body_offset` when it is given, otherwise
   * from `package_body_start`; either way it lies in [0, `ipcBufferSize`].
   */
  lemma SetBodyOffsetPrecedence(env: Env, c: PortConfig, opts: Options)
    requires Set(env, c, opts).Success?
    ensures var b := Set(env, c, opts).value.framing.bodyOffset;
      && (PackageBodyOffset in opts ==> b == Clamp(Long(env, opts[PackageBodyOffset]), 0, UINT16_MAX))
      && (PackageBodyOffset !in opts && PackageBodyStart in opts ==>
            b == Clamp(Long(env, opts[PackageBodyStart]), 0, UINT16_MAX))
      && (PackageBodyOffset in opts || PackageBodyStart in opts ==> 0 <= b <= env.ipcBufferSize)
      && (PackageBodyOffset !in opts && PackageBodyStart !in opts ==> b == c.framing.bodyOffset)
  {
  }

  /**
   * A callable length function overrides the length-field description given in
   * the same call, and makes the server single-threaded.
   */
  lemma SetLengthFuncOverrides(env: Env, c: PortConfig, opts: Options)
    requires Set(env, c, opts).Success?
    requires LengthFuncInstalled(env, opts)
    ensures var r := Set(env, c, opts).value;
      && r.framing.lengthFunc == Some(opts[PackageLengthFunc])
      && r.framing.lengthSize == 0 && r.framing.lengthType == '\0'
      && r.framing.lengthOffset == env.ipcBufferSize
      && r.singleThread
  {
  }

  /** Without a length function, an accepted length type is stored with its (non-zero) size. */
  lemma SetStoresLengthType(env: Env, c: PortConfig, opts: Options)
    requires Set(env, c, opts).Success?
    requires !LengthFuncInstalled(env, opts)
    requires PackageLengthType in opts
    ensures var f := Set(env, c, opts).value.framing;
      f.lengthType == LengthLetter(opts) && f.lengthSize == env.typeSize(LengthLetter(opts)) > 0
  {
  }

  /** An empty option array changes nothing except switching TCP_NODELAY on. */
  lemma SetEmptyOnlyEnablesNodelay(env: Env, c: PortConfig)
    ensures Set(env, c, map[]) == Success(c.(tcp := c.tcp.(nodelay := true)))
  {
  }

  /** Applying the same options twice gives the same configuration as applying them once. */
  lemma SetIdempotent(env: Env, c: PortConfig, opts: Options)
    requires Set(env, c, opts).Success?
    ensures Set(env, Set(env, c, opts).value, opts) == Set(env, c, opts)
  {
    var once := Set(env, c, opts).value;
    SetParts(env, c, opts);
    ApplyEofIdempotent(env, c.eof, opts);
    ApplyFramingIdempotent(env, c.framing, opts);
    assert Set(env, once, opts).Success?;
    SetParts(env, once, opts);
  }

  lemma ApplyEofIdempotent(env: Env, e: Eof, opts: Options)
    requires ApplyEof(env, e, opts).Success?
    ensures ApplyEof(env, ApplyEof(env, e, opts).value, opts) == ApplyEof(env, e, opts)
  {
  }

  lemma ApplyFramingIdempotent(env: Env, f: Framing, opts: Options)
    requires ApplyFraming(env, f, opts).Success?
    ensures ApplyFraming(env, ApplyFraming(env, f, opts).value, opts) == ApplyFraming(env, f, opts)
  {
  }
}

=== FILE: reaper.dfy ===
/**
 * The SIGCHLD handler of src/os/wait.cc (`signal_handler`, lines 45-71).
 *
 * One delivery of the signal may stand for several deaths, so the handler drains
 * every exited child with non-blocking reaps and routes each result: to the
 * targeted waiter for that pid, else to the oldest wildcard waiter, else into
 * the reap cache.
 *
 * The handler resumes the chosen coroutine synchronously, and that coroutine
 * deregisters itself before the handler reaps the next child; the model therefore
 * performs "hand the result over" and "the waiter's dequeue" as one step.
 */
module Reaper {
  import opened WaitRegistry

  datatype Signo = SigChld | OtherSignal(signo: int)

  /** One answer of the non-blocking reap of any child; a pid that is not positive means none is left. */
  datatype Exit = Exit(pid: Pid, status: int)

  /** Where a reaped child's status went. */
  datatype Dest = Targeted(task: TaskId) | Wildcard(task: TaskId) | Cached

  datatype Delivery = Delivery(dest: Dest, pid: Pid, status: int)

  datatype Routed = Routed(state: WaitState, delivery: Delivery)

  datatype Drained = Drained(state: WaitState, deliveries: seq<Delivery>)

  predicate ToTask(d: Delivery) {
    !d.dest.Cached?
  }

  /**
   * Routes one reaped child (lines 56-69) together with the dequeue of the waiter
   * it wakes (lines 157-166).
   */
  function Route(s: WaitState, pid: Pid, status: int): (r: Routed)
    requires pid > 0
    ensures r.delivery.pid == pid && r.delivery.status == status
    ensures r.delivery.dest.Targeted? <==> pid in s.waitpidMap
    ensures r.delivery.dest.Wildcard? <==> pid !in s.waitpidMap && s.waitList != []
    ensures r.delivery.dest.Targeted? ==> r.delivery.dest.task == s.waitpidMap[pid] && r.state.waitList == s.waitList
    ensures r.delivery.dest.Targeted? ==> r.state.waitpidMap == s.waitpidMap - {pid}
    ensures r.delivery.dest.Wildcard? ==> r.delivery.dest.task == s.waitList[0] && r.state.waitList == s.waitList[1..]
    ensures !r.delivery.dest.Targeted? ==> r.state.waitpidMap == s.waitpidMap
    ensures r.delivery.dest.Cached? ==> r.state.cache == s.cache[pid := status] && r.state.waitList == s.waitList
    ensures ToTask(r.delivery) ==> r.state.cache == s.cache
    ensures WaitCount(r.state) == WaitCount(s) - (if ToTask(r.delivery) then 1 else 0)
    ensures r.state.signalReady == s.signalReady
  {
    if pid in s.waitpidMap then
      var t := s.waitpidMap[pid];
      var s' := Dequeue(s, pid, t, pid);
      assert s'.waitpidMap == s.waitpidMap - {pid};
      Routed(s', Delivery(Targeted(t), pid, status))
    else if s.waitList != [] then
      var t := s.waitList[0];
      var s' := Dequeue(s, -1, t, pid);
      assert s'.waitList == s.waitList[1..];
      Routed(s', Delivery(Wildcard(t), pid, status))
    else
      Routed(s.(cache := s.cache[pid := status]), Delivery(Cached, pid, status))
  }

  /** Waking the targeted waiter of a pid removes exactly that waiter. */
  lemma EraseTargetedKeepsInv(s: WaitState, pid: Pid)
    requires Inv(s)
    requires pid in s.waitpidMap
    ensures var s' := s.(waitpidMap := s.waitpidMap - {pid});
      Inv(s') && RegisteredTasks(s') == RegisteredTasks(s) - {s.waitpidMap[pid]}
  {
    var t := s.waitpidMap[pid];
    var m := s.waitpidMap;
    var m' := m - {pid};
    var s' := s.(waitpidMap := m');
    assert Injective(m');
    forall u | u in m'.Values
      ensures u in m.Values && u != t
    {
      var q := KeyOfValue(m', u);
      assert m[q] == u;
    }
    forall u | u in m.Values && u != t
      ensures u in m'.Values
    {
      var q := KeyOfValue(m, u);
      assert m'[q] == u;
    }
    assert m'.Values == m.Values - {t};
    assert t !in Elements(s.waitList);
  }

  /** Popping the front wildcard waiter removes exactly that waiter. */
  lemma PopWildcardKeepsInv(s: WaitState)
    requires Inv(s)
    requires s.waitList != []
    ensures var s' := s.(waitList := s.waitList[1..]);
      Inv(s') && RegisteredTasks(s') == RegisteredTasks(s) - {s.waitList[0]}
  {
    var t := s.waitList[0];
    var s' := s.(waitList := s.waitList[1..]);
    PopFrontIsRemoveFront(s.waitList);
    RemoveAllKeepsNoDup(s.waitList, t);
    assert t !in s.waitpidMap.Values by {
      if t in s.waitpidMap.Values {
        var q := KeyOfValue(s.waitpidMap, t);
      }
    }
    assert Elements(s'.waitList) == Elements(s.waitList) - {t};
  }

  /** Routing keeps the invariant and wakes one registered waiter, which leaves the registries. */
  lemma RouteKeepsInv(s: WaitState, pid: Pid, status: int)
    requires Inv(s)
    requires pid > 0
    ensures Inv(Route(s, pid, status).state)
    ensures var r := Route(s, pid, status);
      if ToTask(r.delivery) then
        r.delivery.dest.task in RegisteredTasks(s) &&
        RegisteredTasks(r.state) == RegisteredTasks(s) - {r.delivery.dest.task}
      else
        RegisteredTasks(r.state) == RegisteredTasks(s)
  {
    var r := Route(s, pid, status);
    if r.delivery.dest.Targeted? {
      EraseTargetedKeepsInv(s, pid);
      assert r.state == s.(waitpidMap := s.waitpidMap - {pid});
    } else if r.delivery.dest.Wildcard? {
      PopWildcardKeepsInv(s);
      assert r.state == s.(waitList := s.waitList[1..]);
    }
  }

  /** The longest prefix of the reap answers the drain loop consumes: it stops at the first non-positive pid. */
  function Reaped(exits: seq<Exit>): (r: seq<Exit>)
    ensures |r| <= |exits| && r == exits[..|r|]
    ensures forall i :: 0 <= i < |r| ==> r[i].pid > 0
    ensures |r| < |exits| ==> exits[|r|].pid <= 0
  {
    if |exits| == 0 || exits[0].pid <= 0 then []
    else [exits[0]] + Reaped(exits[1..])
  }

  /** The drain loop (lines 50-70): one delivery per reaped child, in reaping order. */
  function Drain(s: WaitState, exits: seq<Exit>): (r: Drained)
    ensures |r.deliveries| == |Reaped(exits)|
    ensures forall i :: 0 <= i < |r.deliveries| ==>
      r.deliveries[i].pid == Reaped(exits)[i].pid && r.deliveries[i].status == Reaped(exits)[i].status
    ensures r.state.signalReady == s.signalReady
    decreases |exits|
  {
    if |exits| == 0 || exits[0].pid <= 0 then Drained(s, [])
    else
      var first := Route(s, exits[0].pid, exits[0].status);
      var rest := Drain(first.state, exits[1..]);
      Drained(rest.state, [first.delivery] + rest.deliveries)
  }

  /** `signal_handler`: ignores every signal other than SIGCHLD, otherwise drains. */
  function SignalHandler(s: WaitState, signo: Signo, exits: seq<Exit>): (r: Drained)
    ensures signo.OtherSignal? ==> r.state == s && r.deliveries == []
    ensures signo == SigChld ==> |r.deliveries| == |Reaped(exits)|
    ensures forall i :: 0 <= i < |r.deliveries| ==>
      r.deliveries[i].pid == exits[i].pid && r.deliveries[i].status == exits[i].status
  {
    if signo != SigChld then Drained(s, []) else Drain(s, exits)
  }

  /** The tasks that received a child, as a set. */
  function DeliveredTasks(ds: seq<Delivery>): set<TaskId> {
    set i | 0 <= i < |ds| && ToTask(ds[i]) :: ds[i].dest.task
  }

  /** The pids that found no waiter and went to the cache. */
  function CachedPids(ds: seq<Delivery>): set<Pid> {
    set i | 0 <= i < |ds| && ds[i].dest.Cached? :: ds[i].pid
  }

  /** The wildcard waiters served, in the order they were served. */
  function WildcardTasks(ds: seq<Delivery>): seq<TaskId> {
    if ds == [] then []
    else (if ds[0].dest.Wildcard? then [ds[0].dest.task] else []) + WildcardTasks(ds[1..])
  }

  /** How many deliveries went to a waiter rather than to the cache. */
  function TaskDeliveries(ds: seq<Delivery>): nat {
    if ds == [] then 0
    else (if ToTask(ds[0]) then 1 else 0) + TaskDeliveries(ds[1..])
  }

  lemma DeliveredTasksCons(d: Delivery, ds: seq<Delivery>)
    ensures DeliveredTasks([d] + ds) == Woke(d) + DeliveredTasks(ds)
  {
    var all := [d] + ds;
    forall t | t in DeliveredTasks(all)
      ensures t in Woke(d) + DeliveredTasks(ds)
    {
      var i :| 0 <= i < |all| && ToTask(all[i]) && all[i].dest.task == t;
      if i > 0 {
        assert all[i] == ds[i - 1];
      }
    }
    forall t | t in DeliveredTasks(ds)
      ensures t in DeliveredTasks(all)
    {
      var i :| 0 <= i < |ds| && ToTask(ds[i]) && ds[i].dest.task == t;
      assert all[i + 1] == ds[i];
    }
    if ToTask(d) {
      assert all[0] == d;
    }
  }

  lemma CachedPidsCons(d: Delivery, ds: seq<Delivery>)
    ensures CachedPids([d] + ds) == CachedPid(d) + CachedPids(ds)
  {
    var all := [d] + ds;
    forall p | p in CachedPids(all)
      ensures p in CachedPid(d) + CachedPids(ds)
    {
      var i :| 0 <= i < |all| && all[i].dest.Cached? && all[i].pid == p;
      if i > 0 {
        assert all[i] == ds[i - 1];
      }
    }
    forall p | p in CachedPids(ds)
      ensures p in CachedPids(all)
    {
      var i :| 0 <= i < |ds| && ds[i].dest.Cached? && ds[i].pid == p;
      assert all[i + 1] == ds[i];
    }
    if d.dest.Cached? {
      assert all[0] == d;
    }
  }

  /** Unfolds one step of the drain. */
  lemma DrainStep(s: WaitState, exits: seq<Exit>)
    requires |exits| > 0 && exits[0].pid > 0
    ensures var first := Route(s, exits[0].pid, exits[0].status);
      var rest := Drain(first.state, exits[1..]);
      Drain(s, exits) == Drained(rest.state, [first.delivery] + rest.deliveries)
  {
  }

  /** The drain keeps the invariant. */
  lemma {:induction false} DrainKeepsInv(s: WaitState, exits: seq<Exit>)
    requires Inv(s)
    ensures Inv(Drain(s, exits).state)
    decreases |exits|
  {
    if |exits| > 0 && exits[0].pid > 0 {
      var first := Route(s, exits[0].pid, exits[0].status);
      DrainStep(s, exits);
      RouteKeepsInv(s, exits[0].pid, exits[0].status);
      DrainKeepsInv(first.state, exits[1..]);
    }
  }

  /**
   * The loop is not atomic: between two reaps the woken coroutine runs and may
   * call `waitpid` again. Splitting a drain after a fully reaped prefix gives the
   * same bookkeeping and the same deliveries as draining the two parts in turn.
   */
  lemma {:induction false} DrainComposes(s: WaitState, e1: seq<Exit>, e2: seq<Exit>)
    requires forall i :: 0 <= i < |e1| ==> e1[i].pid > 0
    ensures var first := Drain(s, e1);
      var second := Drain(first.state, e2);
      Drain(s, e1 + e2) == Drained(second.state, first.deliveries + second.deliveries)
    decreases |e1|
  {
    if |e1| == 0 {
      assert e1 + e2 == e2;
    } else {
      var tail := e1[1..];
      forall i | 0 <= i < |tail|
        ensures tail[i].pid > 0
      {
        assert tail[i] == e1[i + 1];
      }
      DrainComposes(Route(s, e1[0].pid, e1[0].status).state, tail, e2);
      DrainComposesStep(s, e1, e2);
    }
  }

  /** One step of `DrainComposes`: the first child is routed the same way in both drains. */
  lemma DrainComposesStep(s: WaitState, e1: seq<Exit>, e2: seq<Exit>)
    requires |e1| > 0 && e1[0].pid > 0
    requires var r := Route(s, e1[0].pid, e1[0].status);
      var first := Drain(r.state, e1[1..]);
      var second := Drain(first.state, e2);
      Drain(r.state, e1[1..] + e2) == Drained(second.state, first.deliveries + second.deliveries)
    ensures var first := Drain(s, e1);
      var second := Drain(first.state, e2);
      Drain(s, e1 + e2) == Drained(second.state, first.deliveries + second.deliveries)
  {
    var r := Route(s, e1[0].pid, e1[0].status);
    var tail := e1[1..];
    ConcatTail(e1, e2);
    DrainStep(s, e1);
    DrainStep(s, e1 + e2);
    Glue(Drain(s, e1), Drain(s, e1 + e2), Drain(r.state, tail), Drain(r.state, tail + e2),
      Drain(Drain(r.state, tail).state, e2), r.delivery);
  }

  /** Head and tail of a concatenation with a non-empty front. */
  lemma ConcatTail(e1: seq<Exit>, e2: seq<Exit>)
    requires |e1| > 0
    ensures (e1 + e2)[0] == e1[0]
    ensures (e1 + e2)[1..] == e1[1..] + e2
  {
  }

  /** The bookkeeping of one composition step, with the drains abstracted away. */
  lemma Glue(a: Drained, b: Drained, p: Drained, q: Drained, second: Drained, d: Delivery)
    requires a == Drained(p.state, [d] + p.deliveries)
    requires b == Drained(q.state, [d] + q.deliveries)
    requires q == Drained(second.state, p.deliveries + second.deliveries)
    ensures a.state == p.state
    ensures b == Drained(second.state, a.deliveries + second.deliveries)
  {
    assert [d] + (p.deliveries + second.deliveries) == ([d] + p.deliveries) + second.deliveries;
  }

  /** The waiter a delivery woke, as a set (empty for a cached child). */
  function Woke(d: Delivery): set<TaskId> {
    if ToTask(d) then {d.dest.task} else {}
  }

  /**
   * The waiters registered before the drain are split exactly into those it
   * woke and those still registered after it.
   */
  lemma {:induction false} DrainPartitionsWaiters(s: WaitState, exits: seq<Exit>)
    requires Inv(s)
    ensures var r := Drain(s, exits);
      && RegisteredTasks(s) == RegisteredTasks(r.state) + DeliveredTasks(r.deliveries)
      && RegisteredTasks(r.state) !! DeliveredTasks(r.deliveries)
    decreases |exits|
  {
    if |exits| == 0 || exits[0].pid <= 0 {
      assert DeliveredTasks([]) == {};
    } else {
      var first := Route(s, exits[0].pid, exits[0].status);
      var rest := Drain(first.state, exits[1..]);
      DrainStep(s, exits);
      RouteWakesRegistered(s, exits[0].pid, exits[0].status);
      DrainPartitionsWaiters(first.state, exits[1..]);
      DeliveredTasksCons(first.delivery, rest.deliveries);
      PartitionStep(RegisteredTasks(s), RegisteredTasks(first.state), RegisteredTasks(rest.state),
        Woke(first.delivery), DeliveredTasks(rest.deliveries));
    }
  }

  /** `RouteKeepsInv` in set form: the woken waiter was registered, and only it leaves. */
  lemma RouteWakesRegistered(s: WaitState, pid: Pid, status: int)
    requires Inv(s)
    requires pid > 0
    ensures Inv(Route(s, pid, status).state)
    ensures var r := Route(s, pid, status);
      Woke(r.delivery) <= RegisteredTasks(s) && RegisteredTasks(r.state) == RegisteredTasks(s) - Woke(r.delivery)
  {
    RouteKeepsInv(s, pid, status);
  }

  lemma PartitionStep(before: set<TaskId>, mid: set<TaskId>, after: set<TaskId>, woke: set<TaskId>, wokeLater: set<TaskId>)
    requires woke <= before && mid == before - woke
    requires mid == after + wokeLater && after !! wokeLater
    ensures before == after + (woke + wokeLater)
    ensures after !! (woke + wokeLater)
  {
  }

  /** No waiter appears twice among the deliveries. */
  predicate WakesDistinct(ds: seq<Delivery>) {
    forall i, j :: 0 <= i < j < |ds| && ToTask(ds[i]) && ToTask(ds[j]) ==> ds[i].dest.task != ds[j].dest.task
  }

  lemma WakesDistinctCons(d: Delivery, ds: seq<Delivery>, others: set<TaskId>)
    requires WakesDistinct(ds)
    requires DeliveredTasks(ds) <= others
    requires ToTask(d) ==> d.dest.task !in others
    ensures WakesDistinct([d] + ds)
  {
    var all := [d] + ds;
    forall i, j | 0 <= i < j < |all| && ToTask(all[i]) && ToTask(all[j])
      ensures all[i].dest.task != all[j].dest.task
    {
      assert all[j] == ds[j - 1];
      if i == 0 {
        assert all[j].dest.task in DeliveredTasks(ds);
      } else {
        assert all[i] == ds[i - 1];
      }
    }
  }

  /** Exactly-once delivery: no waiter is woken twice by one drain. */
  lemma {:induction false} DrainWakesEachWaiterOnce(s: WaitState, exits: seq<Exit>)
    requires Inv(s)
    ensures WakesDistinct(Drain(s, exits).deliveries)
    decreases |exits|
  {
    if |exits| > 0 && exits[0].pid > 0 {
      var first := Route(s, exits[0].pid, exits[0].status);
      var rest := Drain(first.state, exits[1..]);
      DrainStep(s, exits);
      RouteKeepsInv(s, exits[0].pid, exits[0].status);
      DrainPartitionsWaiters(first.state, exits[1..]);
      DrainWakesEachWaiterOnce(first.state, exits[1..]);
      WakesDistinctCons(first.delivery, rest.deliveries, RegisteredTasks(first.state));
    }
  }

  /**
   * FIFO service: the wildcard waiters the drain serves are exactly the oldest
   * ones, in registration order, and the rest keep their order.
   */
  lemma {:induction false} DrainServesWildcardsInOrder(s: WaitState, exits: seq<Exit>)
    ensures var r := Drain(s, exits);
      var k := |WildcardTasks(r.deliveries)|;
      && k <= |s.waitList|
      && WildcardTasks(r.deliveries) == s.waitList[..k]
      && r.state.waitList == s.waitList[k..]
    decreases |exits|
  {
    if |exits| > 0 && exits[0].pid > 0 {
      var first := Route(s, exits[0].pid, exits[0].status);
      var rest := Drain(first.state, exits[1..]);
      DrainStep(s, exits);
      DrainServesWildcardsInOrder(first.state, exits[1..]);
      WildcardTasksCons(first.delivery, rest.deliveries);
      if first.delivery.dest.Wildcard? {
        FifoStep(s.waitList, |WildcardTasks(rest.deliveries)|);
      }
    }
  }

  lemma WildcardTasksCons(d: Delivery, ds: seq<Delivery>)
    ensures WildcardTasks([d] + ds) == (if d.dest.Wildcard? then [d.dest.task] else []) + WildcardTasks(ds)
  {
    assert ([d] + ds)[1..] == ds;
  }

  lemma FifoStep(w: seq<TaskId>, k: nat)
    requires k < |w|
    ensures [w[0]] + w[1..][..k] == w[..k + 1]
    ensures w[1..][k..] == w[k + 1..]
  {
  }

  /**
   * Targeted priority: a delivery marked targeted went to the waiter registered
   * for that pid before the drain, and the first reaped death of a pid that has
   * a targeted waiter goes to that waiter, whatever wildcard waiters are pending.
   */
  lemma {:induction false} DrainTargetedPriority(s: WaitState, exits: seq<Exit>)
    ensures var ds := Drain(s, exits).deliveries;
      forall i :: 0 <= i < |ds| && ds[i].dest.Targeted? ==>
        ds[i].pid in s.waitpidMap && s.waitpidMap[ds[i].pid] == ds[i].dest.task
    ensures var ds := Drain(s, exits).deliveries;
      forall i :: 0 <= i < |ds| && ds[i].pid in s.waitpidMap && FirstOfPid(ds, i) ==>
        ds[i].dest == Targeted(s.waitpidMap[ds[i].pid])
    decreases |exits|
  {
    if |exits| == 0 || exits[0].pid <= 0 {
    } else {
      var first := Route(s, exits[0].pid, exits[0].status);
      var rest := Drain(first.state, exits[1..]);
      DrainStep(s, exits);
      DrainTargetedPriority(first.state, exits[1..]);
      var d := first.delivery;
      var ds := rest.deliveries;
      var all := [d] + ds;
      forall i | 0 <= i < |all| && all[i].dest.Targeted?
        ensures all[i].pid in s.waitpidMap && s.waitpidMap[all[i].pid] == all[i].dest.task
      {
        if i > 0 {
          assert all[i] == ds[i - 1];
        }
      }
      forall i | 0 <= i < |all| && all[i].pid in s.waitpidMap && FirstOfPid(all, i)
        ensures all[i].dest == Targeted(s.waitpidMap[all[i].pid])
      {
        if i > 0 {
          assert all[i] == ds[i - 1];
          assert all[0].pid != all[i].pid;
          assert FirstOfPid(ds, i - 1) by {
            forall j | 0 <= j < i - 1
              ensures ds[j].pid != ds[i - 1].pid
            {
              assert all[j + 1] == ds[j];
            }
          }
        }
      }
    }
  }

  /** No earlier delivery carries the same pid as delivery `i`. */
  predicate FirstOfPid(ds: seq<Delivery>, i: nat)
    requires i < |ds|
  {
    forall j :: 0 <= j < i ==> ds[j].pid != ds[i].pid
  }

  /**
   * Conservation: every reaped child that wakes a waiter lowers the wait count
   * by one; the others leave it alone.
   */
  lemma {:induction false} DrainCountsWakeups(s: WaitState, exits: seq<Exit>)
    ensures WaitCount(Drain(s, exits).state) + TaskDeliveries(Drain(s, exits).deliveries) == WaitCount(s)
    decreases |exits|
  {
    if |exits| > 0 && exits[0].pid > 0 {
      var first := Route(s, exits[0].pid, exits[0].status);
      var rest := Drain(first.state, exits[1..]);
      DrainStep(s, exits);
      DrainCountsWakeups(first.state, exits[1..]);
      var all := [first.delivery] + rest.deliveries;
      assert all[1..] == rest.deliveries;
      assert TaskDeliveries(all) == (if ToTask(first.delivery) then 1 else 0) + TaskDeliveries(rest.deliveries);
    }
  }

  /** The cache gains exactly the pids of the reaped children that found no waiter. */
  lemma {:induction false} DrainCachesUnclaimed(s: WaitState, exits: seq<Exit>)
    ensures Drain(s, exits).state.cache.Keys == s.cache.Keys + CachedPids(Drain(s, exits).deliveries)
    decreases |exits|
  {
    if |exits| == 0 || exits[0].pid <= 0 {
      assert CachedPids([]) == {};
    } else {
      var first := Route(s, exits[0].pid, exits[0].status);
      var rest := Drain(first.state, exits[1..]);
      DrainStep(s, exits);
      RouteCacheKeys(s, exits[0].pid, exits[0].status);
      DrainCachesUnclaimed(first.state, exits[1..]);
      CachedPidsCons(first.delivery, rest.deliveries);
      UnionStep(s.cache.Keys, first.state.cache.Keys, rest.state.cache.Keys,
        CachedPid(first.delivery), CachedPids(rest.deliveries));
    }
  }

  /** Delivery `i` went to the cache, and no later delivery put the same pid there. */
  predicate LastCachedOfPid(ds: seq<Delivery>, i: nat)
    requires i < |ds|
  {
    ds[i].dest.Cached? && forall j :: i < j < |ds| && ds[j].dest.Cached? ==> ds[j].pid != ds[i].pid
  }

  /**
   * The cache holds the reaped statuses (line 62): a pid the drain cached maps to
   * the status of its last cached death, and every other cached pid keeps the
   * status it had before.
   */
  lemma {:induction false} DrainCachesStatuses(s: WaitState, exits: seq<Exit>)
    ensures var r := Drain(s, exits);
      forall i :: 0 <= i < |r.deliveries| && LastCachedOfPid(r.deliveries, i) ==>
        r.deliveries[i].pid in r.state.cache && r.state.cache[r.deliveries[i].pid] == r.deliveries[i].status
    ensures var r := Drain(s, exits);
      forall p :: p in s.cache && p !in CachedPids(r.deliveries) ==>
        p in r.state.cache && r.state.cache[p] == s.cache[p]
    decreases |exits|
  {
    if |exits| == 0 || exits[0].pid <= 0 {
      assert CachedPids([]) == {};
    } else {
      var first := Route(s, exits[0].pid, exits[0].status);
      var rest := Drain(first.state, exits[1..]);
      DrainStep(s, exits);
      DrainCachesStatuses(first.state, exits[1..]);
      StatusesStep(s.cache, first.state.cache, rest.state.cache, first.delivery, rest.deliveries);
    }
  }

  /** The cache holds the status of every delivery that was the last to cache its pid. */
  predicate HoldsLastStatuses(cache: map<Pid, int>, ds: seq<Delivery>) {
    forall i :: 0 <= i < |ds| && LastCachedOfPid(ds, i) ==> ds[i].pid in cache && cache[ds[i].pid] == ds[i].status
  }

  /** Every pid the deliveries did not cache keeps its entry from `before` in `after`. */
  predicate KeepsUncached(before: map<Pid, int>, after: map<Pid, int>, ds: seq<Delivery>) {
    forall p :: p in before && p !in CachedPids(ds) ==> p in after && after[p] == before[p]
  }

  /** One step of `DrainCachesStatuses`, on the caches alone. */
  lemma StatusesStep(before: map<Pid, int>, mid: map<Pid, int>, after: map<Pid, int>, d: Delivery, rest: seq<Delivery>)
    requires d.dest.Cached? ==> mid == before[d.pid := d.status]
    requires !d.dest.Cached? ==> mid == before
    requires HoldsLastStatuses(after, rest) && KeepsUncached(mid, after, rest)
    ensures HoldsLastStatuses(after, [d] + rest) && KeepsUncached(before, after, [d] + rest)
  {
    var all := [d] + rest;
    CachedPidsCons(d, rest);
    forall i | 0 <= i < |all| && LastCachedOfPid(all, i)
      ensures all[i].pid in after && after[all[i].pid] == all[i].status
    {
      if i == 0 {
        LastCachedUncachedLater(d, rest);
      } else {
        LastCachedShifts(d, rest, i);
      }
    }
    forall p | p in before && p !in CachedPids(all)
      ensures p in after && after[p] == before[p]
    {
      assert p in mid && mid[p] == before[p];
    }
  }

  /** A cached delivery that is the last of its pid in `[d] + rest` names a pid `rest` does not cache. */
  lemma LastCachedUncachedLater(d: Delivery, rest: seq<Delivery>)
    requires LastCachedOfPid([d] + rest, 0)
    ensures d.pid !in CachedPids(rest)
  {
    var all := [d] + rest;
    assert forall j :: 0 <= j < |rest| ==> all[j + 1] == rest[j];
  }

  /** Being the last cached delivery of a pid survives dropping the head of the sequence. */
  lemma LastCachedShifts(d: Delivery, rest: seq<Delivery>, i: nat)
    requires 0 < i < |[d] + rest| && LastCachedOfPid([d] + rest, i)
    ensures LastCachedOfPid(rest, i - 1) && rest[i - 1] == ([d] + rest)[i]
  {
    var all := [d] + rest;
    forall j | i - 1 < j < |rest| && rest[j].dest.Cached?
      ensures rest[j].pid != rest[i - 1].pid
    {
      assert all[j + 1] == rest[j];
    }
  }

  lemma UnionStep(before: set<Pid>, mid: set<Pid>, after: set<Pid>, added: set<Pid>, addedLater: set<Pid>)
    requires mid == before + added && after == mid + addedLater
    ensures after == before + (added + addedLater)
  {
  }

  /** The pid a delivery put into the cache, as a set (empty when it woke a waiter). */
  function CachedPid(d: Delivery): set<Pid> {
    if d.dest.Cached? then {d.pid} else {}
  }

  lemma RouteCacheKeys(s: WaitState, pid: Pid, status: int)
    requires pid > 0
    ensures var r := Route(s, pid, status);
      r.state.cache.Keys == s.cache.Keys + CachedPid(r.delivery)
  {
  }

  /**
   * With no waiter registered, every reaped child goes to the cache under its
   * latest status and the registries stay empty (the first half of draining the
   * cache).
   */
  lemma {:induction false} DrainWithoutWaitersCachesAll(s: WaitState, exits: seq<Exit>)
    requires s.waitList == [] && s.waitpidMap == map[]
    ensures var r := Drain(s, exits);
      && r.state.waitList == [] && r.state.waitpidMap == map[]
      && (forall i :: 0 <= i < |r.deliveries| ==> r.deliveries[i].dest.Cached? && r.deliveries[i].pid in r.state.cache)
      && s.cache.Keys <= r.state.cache.Keys
    ensures var r := Drain(s, exits);
      forall i :: 0 <= i < |r.deliveries| && LastCachedOfPid(r.deliveries, i) ==>
        r.state.cache[r.deliveries[i].pid] == r.deliveries[i].status
    decreases |exits|
  {
    DrainCachesStatuses(s, exits);
    if |exits| == 0 || exits[0].pid <= 0 {
    } else {
      var first := Route(s, exits[0].pid, exits[0].status);
      var rest := Drain(first.state, exits[1..]);
      DrainStep(s, exits);
      DrainWithoutWaitersCachesAll(first.state, exits[1..]);
      var all := [first.delivery] + rest.deliveries;
      forall i | 0 <= i < |all|
        ensures all[i].dest.Cached? && all[i].pid in rest.state.cache
      {
        if i > 0 {
          assert all[i] == rest.deliveries[i - 1];
        }
      }
    }
  }

  /**
   * A targeted waiter for pid 0 ("any child of my process group") is never woken
   * by the handler: only reaped, positive pids are routed, so its slot survives.
   */
  lemma {:induction false} DrainNeverWakesPidZero(s: WaitState, exits: seq<Exit>)
    requires 0 in s.waitpidMap
    ensures 0 in Drain(s, exits).state.waitpidMap
    ensures Drain(s, exits).state.waitpidMap[0] == s.waitpidMap[0]
    decreases |exits|
  {
    if |exits| == 0 || exits[0].pid <= 0 {
    } else {
      var first := Route(s, exits[0].pid, exits[0].status);
      DrainStep(s, exits);
      DrainNeverWakesPidZero(first.state, exits[1..]);
    }
  }

  /** Two wildcard waiters and two deaths in one signal: the older waiter gets the first death. */
  lemma TwoWildcardWaitersServedInOrder(s: WaitState, w1: TaskId, w2: TaskId, c1: Exit, c2: Exit)
    requires s.waitList == [w1, w2] && s.waitpidMap == map[]
    requires c1.pid > 0 && c2.pid > 0
    ensures Drain(s, [c1, c2]).deliveries ==
      [Delivery(Wildcard(w1), c1.pid, c1.status), Delivery(Wildcard(w2), c2.pid, c2.status)]
    ensures Drain(s, [c1, c2]).state == s.(waitList := [])
  {
    DrainStep(s, [c1, c2]);
    var first := Route(s, c1.pid, c1.status);
    assert [c1, c2][1..] == [c2];
    DrainStep(first.state, [c2]);
    assert [c2][1..] == [];
  }

  /**
   * One wildcard waiter and two coalesced deaths: the waiter gets the first death
   * reaped and the second lands in the cache for a later call.
   */
  lemma OneWaiterTwoDeaths(s: WaitState, w: TaskId, c1: Exit, c2: Exit)
    requires s.waitList == [w] && s.waitpidMap == map[]
    requires c1.pid > 0 && c2.pid > 0
    ensures Drain(s, [c1, c2]).deliveries ==
      [Delivery(Wildcard(w), c1.pid, c1.status), Delivery(Cached, c2.pid, c2.status)]
    ensures Drain(s, [c1, c2]).state == s.(waitList := [], cache := s.cache[c2.pid := c2.status])
  {
    DrainStep(s, [c1, c2]);
    var first := Route(s, c1.pid, c1.status);
    assert [c1, c2][1..] == [c2];
    DrainStep(first.state, [c2]);
    assert [c2][1..] == [];
  }
}

=== FILE: wait_protocol.dfy ===
/**
 * The caller side of src/os/wait.cc: `System::waitpid` (lines 112-177), `System::wait`
 * (lines 91-93), the bypass test of `System::waitpid_safe` (lines 95-98), the lazy
 * installation in `signal_init` (lines 73-89) and the EINTR retry of `swoole_waitpid`
 * (lines 193-206).
 *
 * A call either returns at once (cache hit, bypass to the OS, or a successful
 * non-blocking probe) or suspends its coroutine after registering it. A suspended
 * call ends in one of two ways: the SIGCHLD handler hands it a child (see `Reaper`),
 * or the coroutine is resumed without one (timeout), which `Wake` models.
 *
 * Every call into the operating system is an oracle reply passed in by the caller
 * of the model; `unordered_map::begin()` on the reap cache is the `pick` parameter.
 */
module WaitProtocol {
  import opened Wrappers
  import opened WaitRegistry
  import opened Reaper

  /**
   * The option bits the model distinguishes. The others reach the OS only where
   * the call itself asks it (the bypass and the probe) and are part of its answer.
   */
  datatype WaitOptions = WaitOptions(noHang: bool)

  /** Whether the thread has a reactor and which coroutine, if any, is running. */
  datatype Context = Context(hasReactor: bool, current: Option<TaskId>)

  datatype Errno = ETimedOut | EIntr | OtherErrno(code: int)

  /**
   * What a wait call hands back: the pid it returns, the status it wrote through
   * the status pointer (None: left untouched) and the errno it set (None: left untouched).
   */
  datatype CallResult = CallResult(ret: Pid, status: Option<int>, errno: Option<Errno>)

  /** A suspended call: the coroutine and the pid it waits for (negative: any child). */
  datatype Parked = Parked(task: TaskId, target: Pid)

  datatype Step = Returned(result: CallResult) | Suspended(parked: Parked)

  datatype Called = Called(state: WaitState, step: Step)

  datatype Init = Init(state: WaitState, installed: bool)

  datatype Woken = Woken(state: WaitState, result: CallResult)

  /** The escape hatch of lines 96 and 130: no reactor, no coroutine, or WNOHANG. */
  predicate Bypass(ctx: Context, opts: WaitOptions) {
    !ctx.hasReactor || ctx.current.None? || opts.noHang
  }

  /** The cache answers the call: a wildcard call on a non-empty cache, or a targeted call on a cached pid. */
  predicate CacheHit(s: WaitState, pid: Pid) {
    (pid < 0 && s.cache != map[]) || (pid >= 0 && pid in s.cache)
  }

  /** The registry slot a suspended call occupies. */
  predicate ParkedIn(s: WaitState, p: Parked) {
    if p.target < 0 then p.task in s.waitList
    else p.target in s.waitpidMap && s.waitpidMap[p.target] == p.task
  }

  /** Both registries and the cache, without the readiness flag. */
  predicate SameBookkeeping(a: WaitState, b: WaitState) {
    a.waitList == b.waitList && a.waitpidMap == b.waitpidMap && a.cache == b.cache
  }

  /**
   * `signal_init`: only while the handler is not ready does it install the
   * SIGCHLD handler, the reactor exit condition (`CanExit`) and the destroy hook;
   * afterwards the handler is ready. It never touches the registries.
   */
  function SignalInit(s: WaitState): (r: Init)
    ensures r.installed <==> !s.signalReady
    ensures r.state.signalReady
    ensures SameBookkeeping(r.state, s)
  {
    if s.signalReady then Init(s, false)
    else Init(s.(signalReady := true), true)
  }

  /** The destroy hook registered by `signal_init`: the handler is uninstalled and must be installed again. */
  function ReactorDestroyed(s: WaitState): (r: WaitState)
    ensures !r.signalReady
    ensures SameBookkeeping(r, s)
  {
    s.(signalReady := false)
  }

  /** How many installs `n` consecutive calls of `signal_init` perform. */
  function InstallsOver(s: WaitState, n: nat): nat
    decreases n
  {
    if n == 0 then 0
    else
      var i := SignalInit(s);
      (if i.installed then 1 else 0) + InstallsOver(i.state, n - 1)
  }

  /** Idempotent install: any number of calls installs at most once, and not at all when already ready. */
  lemma {:induction false} SignalInitInstallsOnce(s: WaitState, n: nat)
    requires n >= 1
    ensures InstallsOver(s, n) == (if s.signalReady then 0 else 1)
  {
    var i := SignalInit(s);
    if n > 1 {
      ReadyInstallsNothing(i.state, n - 1);
    }
  }

  lemma {:induction false} ReadyInstallsNothing(s: WaitState, n: nat)
    requires s.signalReady
    ensures InstallsOver(s, n) == 0
  {
    if n > 0 {
      ReadyInstallsNothing(SignalInit(s).state, n - 1);
    }
  }

  /** After the reactor is destroyed, the next call installs the handler again. */
  lemma DestroyThenInitReinstalls(s: WaitState)
    ensures SignalInit(ReactorDestroyed(s)).installed
    ensures SignalInit(SignalInit(s).state) == Init(SignalInit(s).state, false)
  {
  }

  /**
   * `System::waitpid` up to the point where it returns or suspends: the cache
   * check, the bypass, the handler installation and probe, and the registration.
   * `os` is the reply of the one `::waitpid` the call makes, if it makes one.
   */
  function Waitpid(s: WaitState, pid: Pid, opts: WaitOptions, ctx: Context, pick: Pid, os: CallResult): (r: Called)
    requires pid < 0 && s.cache != map[] ==> pick in s.cache
    // cache fast path: one entry claimed and removed, nothing else touched, no suspension
    ensures pid < 0 && s.cache != map[] ==>
      r == Called(s.(cache := s.cache - {pick}), Returned(CallResult(pick, Some(s.cache[pick]), None)))
    ensures pid >= 0 && pid in s.cache ==>
      r == Called(s.(cache := s.cache - {pid}), Returned(CallResult(pid, Some(s.cache[pid]), None)))
    // bypass: the OS answer is returned unchanged and no state is touched
    ensures !CacheHit(s, pid) && Bypass(ctx, opts) ==> r == Called(s, Returned(os))
    // probe: the handler is ready before the probe, and a non-zero probe answer is returned as is
    ensures !CacheHit(s, pid) && !Bypass(ctx, opts) ==> r.state.signalReady
    ensures !CacheHit(s, pid) && !Bypass(ctx, opts) && os.ret != 0 ==>
      r.step == Returned(os) && SameBookkeeping(r.state, s)
    // the only suspension point
    ensures r.step.Suspended? <==> !CacheHit(s, pid) && !Bypass(ctx, opts) && os.ret == 0
    ensures r.step.Suspended? ==> r.step.parked == Parked(ctx.current.value, pid) && r.state.cache == s.cache
    ensures r.step.Suspended? && pid < 0 ==>
      r.state.waitList == s.waitList + [ctx.current.value] && r.state.waitpidMap == s.waitpidMap
    ensures r.step.Suspended? && pid >= 0 ==>
      r.state.waitList == s.waitList && r.state.waitpidMap == s.waitpidMap[pid := ctx.current.value]
  {
    if pid < 0 && s.cache != map[] then
      Called(s.(cache := s.cache - {pick}), Returned(CallResult(pick, Some(s.cache[pick]), None)))
    else if pid >= 0 && pid in s.cache then
      Called(s.(cache := s.cache - {pid}), Returned(CallResult(pid, Some(s.cache[pid]), None)))
    else if Bypass(ctx, opts) then
      Called(s, Returned(os))
    else
      var ready := SignalInit(s).state;
      if os.ret != 0 then
        Called(ready, Returned(os))
      else
        var t := ctx.current.value;
        if pid < 0 then Called(ready.(waitList := ready.waitList + [t]), Suspended(Parked(t, pid)))
        else Called(ready.(waitpidMap := ready.waitpidMap[pid := t]), Suspended(Parked(t, pid)))
  }

  /** `System::wait`: a blocking wait for any child, never bypassed by WNOHANG. */
  function Wait(s: WaitState, ctx: Context, pick: Pid, os: CallResult): (r: Called)
    requires s.cache != map[] ==> pick in s.cache
    ensures s.cache != map[] ==> r.step == Returned(CallResult(pick, Some(s.cache[pick]), None))
    ensures r.step.Suspended? <==> s.cache == map[] && ctx.hasReactor && ctx.current.Some? && os.ret == 0
    ensures r.step.Suspended? ==> r.step.parked.target < 0 && r.state.waitList == s.waitList + [r.step.parked.task]
  {
    Waitpid(s, -1, WaitOptions(false), ctx, pick, os)
  }

  /**
   * The result a resumed call reports (lines 169-176): the pid stored in its task,
   * with the status when that pid is positive, and ETIMEDOUT only when the pid is
   * not positive and the coroutine timed out.
   */
  function Finish(taskPid: Pid, taskStatus: int, timedOut: bool): (r: CallResult)
    ensures r.ret == taskPid
    ensures r.status.Some? <==> taskPid > 0
    ensures r.status.Some? ==> r.status.value == taskStatus
    ensures r.errno.Some? <==> taskPid <= 0 && timedOut
    ensures r.errno.Some? ==> r.errno.value == ETimedOut
  {
    if taskPid > 0 then CallResult(taskPid, Some(taskStatus), None)
    else if timedOut then CallResult(taskPid, None, Some(ETimedOut))
    else CallResult(taskPid, None, None)
  }

  /** The result a call suspended in `p` reports when the handler hands it delivery `d`. */
  function Resolved(d: Delivery): (r: CallResult)
    requires d.pid > 0
    ensures r == CallResult(d.pid, Some(d.status), None)
  {
    Finish(d.pid, d.status, false)
  }

  /**
   * A suspended call resumed without a child (lines 154-176 when the task's pid is
   * still -1): it deregisters itself and reports -1, with ETIMEDOUT if it timed out.
   */
  function Wake(s: WaitState, p: Parked, timedOut: bool): (r: Woken)
    ensures r.result.ret == -1 && r.result.status.None?
    ensures r.result.errno == (if timedOut then Some(ETimedOut) else None)
    ensures r.state.cache == s.cache && r.state.signalReady == s.signalReady
  {
    Woken(Dequeue(s, p.target, p.task, -1), Finish(-1, 0, timedOut))
  }

  /**
   * Every call keeps the invariant, provided the running coroutine is not already
   * waiting. A suspended call adds exactly its own coroutine to the registries;
   * when its pid already had a targeted waiter, the slot is overwritten (line 151)
   * and that waiter drops out of the registered set.
   */
  lemma WaitpidKeepsInv(s: WaitState, pid: Pid, opts: WaitOptions, ctx: Context, pick: Pid, os: CallResult)
    requires Inv(s)
    requires pid < 0 && s.cache != map[] ==> pick in s.cache
    requires ctx.current.Some? ==> !Registered(s, ctx.current.value)
    ensures var r := Waitpid(s, pid, opts, ctx, pick, os);
      && Inv(r.state)
      && (r.step.Suspended? ==> ParkedIn(r.state, r.step.parked))
      && (r.step.Suspended? && (pid < 0 || pid !in s.waitpidMap) ==>
            RegisteredTasks(r.state) == RegisteredTasks(s) + {r.step.parked.task})
      && (r.step.Suspended? && pid >= 0 && pid in s.waitpidMap ==>
            RegisteredTasks(r.state) == (RegisteredTasks(s) - {s.waitpidMap[pid]}) + {r.step.parked.task})
      && (r.step.Returned? ==> RegisteredTasks(r.state) == RegisteredTasks(s))
  {
    var r := Waitpid(s, pid, opts, ctx, pick, os);
    if r.step.Suspended? {
      var t := ctx.current.value;
      if pid < 0 {
        assert t !in s.waitList;
        var w := s.waitList + [t];
        forall i, j | 0 <= i < j < |w|
          ensures w[i] != w[j]
        {
          if j == |w| - 1 {
            assert w[i] == s.waitList[i];
          }
        }
        assert Elements(w) == Elements(s.waitList) + {t};
        forall p | p in r.state.waitpidMap
          ensures r.state.waitpidMap[p] !in r.state.waitList
        {
          assert s.waitpidMap[p] in s.waitpidMap.Values;
        }
      } else {
        OverwriteSlot(s.waitpidMap, pid, t);
        forall p | p in r.state.waitpidMap
          ensures r.state.waitpidMap[p] !in r.state.waitList
        {
          if p != pid {
            assert s.waitpidMap[p] in s.waitpidMap.Values;
          }
        }
        if pid in s.waitpidMap {
          assert s.waitpidMap[pid] !in Elements(s.waitList);
        }
      }
    }
  }

  /**
   * Writing a task that no slot holds into slot `k` keeps the map injective and
   * replaces the slot's previous task, if any, by the new one.
   */
  lemma OverwriteSlot(m: map<Pid, TaskId>, k: Pid, t: TaskId)
    requires Injective(m) && t !in m.Values
    ensures Injective(m[k := t])
    ensures m[k := t].Values == (if k in m then m.Values - {m[k]} else m.Values) + {t}
  {
    var m' := m[k := t];
    forall p, q | p in m' && q in m' && p != q
      ensures m'[p] != m'[q]
    {
      if p != k && q != k {
        assert m'[p] == m[p] && m'[q] == m[q];
      } else if p == k {
        assert m[q] in m.Values;
      } else {
        assert m[p] in m.Values;
      }
    }
    var expected := (if k in m then m.Values - {m[k]} else m.Values) + {t};
    forall u | u in m'.Values
      ensures u in expected
    {
      var q := KeyOfValue(m', u);
      if q != k {
        assert m[q] == u;
        assert m[q] in m.Values;
      }
    }
    forall u | u in expected
      ensures u in m'.Values
    {
      if u == t {
        assert m'[k] == t;
      } else {
        var q := KeyOfValue(m, u);
        assert m'[q] == u;
      }
    }
  }

  /**
   * Deregistration after a resumption without a child: the call's coroutine is
   * gone from both registries and every other entry is as it was. A wildcard
   * waiter is removed by identity wherever it stands; a targeted one by its pid key.
   */
  lemma WakeRemovesOnlyItself(s: WaitState, p: Parked, timedOut: bool)
    requires Inv(s)
    requires ParkedIn(s, p)
    ensures var r := Wake(s, p, timedOut);
      && Inv(r.state)
      && !Registered(r.state, p.task)
      && RegisteredTasks(r.state) == RegisteredTasks(s) - {p.task}
      && (p.target < 0 ==> r.state.waitpidMap == s.waitpidMap)
      && (p.target >= 0 ==> r.state.waitList == s.waitList && r.state.waitpidMap == s.waitpidMap - {p.target})
    ensures p.target < 0 ==> forall i :: 0 <= i < |s.waitList| && s.waitList[i] == p.task ==>
      Wake(s, p, timedOut).state.waitList == s.waitList[..i] + s.waitList[i + 1..]
  {
    var r := Wake(s, p, timedOut);
    if p.target < 0 {
      var i :| 0 <= i < |s.waitList| && s.waitList[i] == p.task;
      RemoveAllAtUniqueIndex(s.waitList, i);
      RemoveAllKeepsNoDup(s.waitList, p.task);
      assert r.state.waitList == RemoveAll(s.waitList, p.task);
      assert p.task !in s.waitpidMap.Values by {
        if p.task in s.waitpidMap.Values {
          var q := KeyOfValue(s.waitpidMap, p.task);
        }
      }
      assert Elements(r.state.waitList) == Elements(s.waitList) - {p.task};
      forall j | 0 <= j < |s.waitList| && s.waitList[j] == p.task
        ensures r.state.waitList == s.waitList[..j] + s.waitList[j + 1..]
      {
        assert j == i;
      }
    } else {
      EraseTargetedKeepsInv(s, p.target);
      assert r.state == s.(waitpidMap := s.waitpidMap - {p.target});
    }
  }

  /** No residual entry: a call that suspends and then times out leaves the bookkeeping exactly as it found it. */
  lemma ParkThenTimeoutRestores(s: WaitState, pid: Pid, opts: WaitOptions, ctx: Context, pick: Pid, os: CallResult)
    requires Inv(s)
    requires pid < 0 && s.cache != map[] ==> pick in s.cache
    requires ctx.current.Some? ==> !Registered(s, ctx.current.value)
    requires pid >= 0 ==> pid !in s.waitpidMap
    requires Waitpid(s, pid, opts, ctx, pick, os).step.Suspended?
    ensures var r := Waitpid(s, pid, opts, ctx, pick, os);
      var w := Wake(r.state, r.step.parked, true);
      SameBookkeeping(w.state, s) && w.result == CallResult(-1, None, Some(ETimedOut))
  {
    var r := Waitpid(s, pid, opts, ctx, pick, os);
    var t := ctx.current.value;
    var w := Wake(r.state, r.step.parked, true);
    if pid < 0 {
      assert t !in s.waitList;
      var list := s.waitList + [t];
      assert RemoveAll(list, t) == s.waitList by {
        RemoveAllCons(s.waitList, t);
      }
    } else {
      assert s.waitpidMap[pid := t] - {pid} == s.waitpidMap;
    }
  }

  lemma {:induction false} RemoveAllCons(xs: seq<TaskId>, t: TaskId)
    requires t !in xs
    ensures RemoveAll(xs + [t], t) == xs
  {
    if xs == [] {
      assert [t][1..] == [];
    } else {
      assert (xs + [t])[1..] == xs[1..] + [t];
      RemoveAllCons(xs[1..], t);
      assert xs == [xs[0]] + xs[1..];
    }
  }

  /**
   * Resumption by the handler: the waiter the handler picks for a reaped child
   * is a suspended call, which leaves the registries and reports that child;
   * a targeted call only ever receives the pid it asked for. Every other
   * suspended call keeps its slot.
   */
  lemma RouteResolvesParked(s: WaitState, pid: Pid, status: int, p: Parked)
    requires Inv(s)
    requires pid > 0
    requires ParkedIn(s, p)
    ensures var r := Route(s, pid, status);
      if ToTask(r.delivery) && r.delivery.dest.task == p.task then
        && !Registered(r.state, p.task)
        && (p.target >= 0 ==> pid == p.target && r.delivery.dest.Targeted?)
        && Resolved(r.delivery) == CallResult(pid, Some(status), None)
      else
        ParkedIn(r.state, p)
  {
    var r := Route(s, pid, status);
    RouteKeepsInv(s, pid, status);
    if ToTask(r.delivery) && r.delivery.dest.task == p.task {
      if p.target >= 0 {
        if r.delivery.dest.Wildcard? {
          assert false;
        }
        assert s.waitpidMap[pid] == p.task;
      }
    } else if p.target >= 0 && r.delivery.dest.Targeted? {
      assert s.waitpidMap[pid] != p.task;
    }
  }

  /**
   * The unguarded case: a second targeted call on a pid that already has a
   * waiter overwrites its slot (line 151). The first waiter is then registered
   * nowhere, so no child can reach it; and when it times out, its dequeue erases
   * the slot of the second, which no child can reach either.
   */
  lemma SecondTargetedWaitOrphansFirst(s: WaitState, first: Parked, ctx: Context, os: CallResult)
    requires Inv(s)
    requires first.target >= 0 && ParkedIn(s, first)
    requires ctx.hasReactor && ctx.current.Some? && !Registered(s, ctx.current.value)
    requires os.ret == 0
    ensures var r := Waitpid(s, first.target, WaitOptions(false), ctx, 0, os);
      && r.step == Suspended(Parked(ctx.current.value, first.target))
      && !Registered(r.state, first.task)
      && !ParkedIn(Wake(r.state, first, true).state, r.step.parked)
      && Inv(r.state) && Inv(Wake(r.state, first, true).state)
  {
    var r := Waitpid(s, first.target, WaitOptions(false), ctx, 0, os);
    WaitpidKeepsInv(s, first.target, WaitOptions(false), ctx, 0, os);
    assert first.target !in s.cache;
    var t := ctx.current.value;
    assert first.task !in s.waitList;
    assert first.task != t;
    forall q | q in r.state.waitpidMap
      ensures r.state.waitpidMap[q] != first.task
    {
      if q != first.target {
        assert r.state.waitpidMap[q] == s.waitpidMap[q];
      }
    }
    assert first.task !in r.state.waitpidMap.Values by {
      if first.task in r.state.waitpidMap.Values {
        var q := KeyOfValue(r.state.waitpidMap, first.task);
      }
    }
  }

  /** One call that the cache answers: a wildcard call naming the entry it receives, or a targeted call. */
  datatype Claim = ClaimAny(pick: Pid) | ClaimPid(pid: Pid)

  function Claimed(c: Claim): Pid {
    match c
    case ClaimAny(p) => p
    case ClaimPid(p) => p
  }

  /** The pids a sequence of claims names. */
  function ClaimedPids(claims: seq<Claim>): (r: set<Pid>)
    ensures forall i :: 0 <= i < |claims| ==> Claimed(claims[i]) in r
    ensures forall p :: p in r ==> exists i :: 0 <= i < |claims| && Claimed(claims[i]) == p
  {
    if claims == [] then {}
    else
      var rest := ClaimedPids(claims[1..]);
      assert forall i :: 1 <= i < |claims| ==> claims[i] == claims[1..][i - 1];
      {Claimed(claims[0])} + rest
  }

  /** The claims name cached children, targeted claims name real pids, and no child is named twice. */
  predicate ValidClaims(s: WaitState, claims: seq<Claim>) {
    && (forall i :: 0 <= i < |claims| ==> Claimed(claims[i]) in s.cache)
    && (forall i :: 0 <= i < |claims| && claims[i].ClaimPid? ==> claims[i].pid >= 0)
    && (forall i, j :: 0 <= i < j < |claims| ==> Claimed(claims[i]) != Claimed(claims[j]))
  }

  /** One call answered by the cache: it returns the claimed child's status and removes only that entry. */
  function ClaimOne(s: WaitState, c: Claim, ctx: Context, os: CallResult): (r: Called)
    requires Claimed(c) in s.cache
    requires c.ClaimPid? ==> c.pid >= 0
    ensures r.state == s.(cache := s.cache - {Claimed(c)})
    ensures r.step == Returned(CallResult(Claimed(c), Some(s.cache[Claimed(c)]), None))
  {
    match c
    case ClaimAny(p) => Waitpid(s, -1, WaitOptions(false), ctx, p, os)
    case ClaimPid(p) => Waitpid(s, p, WaitOptions(false), ctx, 0, os)
  }

  datatype Claims = Claims(state: WaitState, results: seq<CallResult>)

  /**
   * Successive calls that each claim a cached child; the context and the OS are
   * never consulted because every call is a cache hit.
   */
  function ClaimAll(s: WaitState, claims: seq<Claim>, ctx: Context, os: CallResult): (r: Claims)
    requires ValidClaims(s, claims)
    ensures |r.results| == |claims|
    ensures forall i :: 0 <= i < |claims| ==>
      r.results[i] == CallResult(Claimed(claims[i]), Some(s.cache[Claimed(claims[i])]), None)
    ensures r.state == s.(cache := s.cache - ClaimedPids(claims))
    decreases |claims|
  {
    if claims == [] then
      Claims(s, [])
    else
      var c := claims[0];
      assert Claimed(c) in s.cache;
      var call := ClaimOne(s, c, ctx, os);
      var tail := claims[1..];
      assert forall i :: 0 <= i < |tail| ==> tail[i] == claims[i + 1];
      var rest := ClaimAll(call.state, tail, ctx, os);
      assert ClaimedPids(claims) == {Claimed(c)} + ClaimedPids(tail);
      assert call.state.cache - ClaimedPids(tail) == s.cache - ClaimedPids(claims);
      Claims(rest.state, [call.step.result] + rest.results)
  }

  lemma {:induction false} ClaimedPidsCardinality(claims: seq<Claim>)
    requires forall i, j :: 0 <= i < j < |claims| ==> Claimed(claims[i]) != Claimed(claims[j])
    ensures |ClaimedPids(claims)| == |claims|
  {
    if claims != [] {
      var tail := claims[1..];
      assert forall i :: 0 <= i < |tail| ==> tail[i] == claims[i + 1];
      ClaimedPidsCardinality(tail);
      assert Claimed(claims[0]) !in ClaimedPids(tail);
    }
  }

  /**
   * Draining the cache: N cached children with no waiter are consumed by N calls
   * that each claim a different one; every call returns its child's status, the
   * cache ends empty, no call suspends and the registries are untouched.
   */
  lemma ClaimingEveryEntryEmptiesCache(s: WaitState, claims: seq<Claim>, ctx: Context, os: CallResult)
    requires ValidClaims(s, claims)
    requires forall p :: p in s.cache ==> exists i :: 0 <= i < |claims| && Claimed(claims[i]) == p
    ensures ClaimAll(s, claims, ctx, os).state == s.(cache := map[])
    ensures |claims| == |s.cache|
  {
    forall p | p in ClaimedPids(claims)
      ensures p in s.cache
    {
      var i :| 0 <= i < |claims| && Claimed(claims[i]) == p;
    }
    forall p | p in s.cache
      ensures p in ClaimedPids(claims)
    {
      var i :| 0 <= i < |claims| && Claimed(claims[i]) == p;
    }
    assert ClaimedPids(claims) == s.cache.Keys;
    assert s.cache - ClaimedPids(claims) == map[];
    ClaimedPidsCardinality(claims);
  }

  /**
   * The bypass test of `System::waitpid_safe`: outside a coroutine, without a
   * reactor, or with WNOHANG the call is the OS call (`Some` of its answer);
   * otherwise it polls, which the model leaves out (`None`).
   */
  function WaitpidSafe(ctx: Context, opts: WaitOptions, os: CallResult): (r: Option<CallResult>)
    ensures r.Some? <==> Bypass(ctx, opts)
    ensures r.Some? ==> r.value == os
  {
    if Bypass(ctx, opts) then Some(os) else None
  }

  /** `waitpid_safe` and `waitpid` bypass under the same condition when the cache does not answer. */
  lemma SafeAndCoroutineWaitBypassAlike(s: WaitState, pid: Pid, opts: WaitOptions, ctx: Context, pick: Pid, os: CallResult)
    requires !CacheHit(s, pid)
    ensures WaitpidSafe(ctx, opts, os).Some? ==>
      Waitpid(s, pid, opts, ctx, pick, os) == Called(s, Returned(WaitpidSafe(ctx, opts, os).value))
    ensures WaitpidSafe(ctx, opts, os).None? && os.ret == 0 ==>
      Waitpid(s, pid, opts, ctx, pick, os).step.Suspended?
  {
  }

  predicate Interrupted(c: CallResult) {
    c.ret < 0 && c.errno == Some(EIntr)
  }

  /**
   * `swoole_waitpid`: repeats the OS call while it fails with EINTR (dispatching
   * pending signals and timers between attempts) and returns the first other
   * answer unchanged. `replies` are the successive OS answers; `None` means they
   * ran out while still interrupted. `retries` counts the dispatch rounds.
   */
  method SwooleWaitpid(replies: seq<CallResult>) returns (r: Option<CallResult>, retries: nat)
    ensures r.Some? <==> exists i :: 0 <= i < |replies| && !Interrupted(replies[i])
    ensures r.Some? ==> retries < |replies| && r.value == replies[retries] && !Interrupted(r.value)
    ensures forall j :: 0 <= j < retries && j < |replies| ==> Interrupted(replies[j])
    ensures r.None? ==> retries == |replies|
  {
    retries := 0;
    while retries < |replies|
      invariant retries <= |replies|
      invariant forall j :: 0 <= j < retries ==> Interrupted(replies[j])
      decreases |replies| - retries
    {
      if !Interrupted(replies[retries]) {
        return Some(replies[retries]), retries;
      }
      retries := retries + 1;
    }
    r := None;
  }
}

=== FILE: wait_registry.dfy ===
/**
 * The process-wide bookkeeping of the coroutine-aware child reaper (src/os/wait.cc):
 * the FIFO of wildcard waiters (`wait_list`), the targeted waiters keyed by pid
 * (`waitpid_map`), the reap cache of exit statuses nobody has claimed yet
 * (`child_processes`) and the readiness flag of the SIGCHLD shim (`signal_ready`).
 *
 * A waiter is identified by the coroutine that is suspended in it; the registries
 * hold those identities, never copies of the waiter's result.
 */
module WaitRegistry {

  type Pid = int
  type TaskId = nat

  datatype WaitState = WaitState(
    waitList: seq<TaskId>,
    waitpidMap: map<Pid, TaskId>,
    cache: map<Pid, int>,
    signalReady: bool)

  /** The state the process starts in: nothing registered, nothing cached, no handler. */
  const Initial: WaitState := WaitState([], map[], map[], false)

  predicate NoDup<T(==)>(xs: seq<T>) {
    forall i, j :: 0 <= i < j < |xs| ==> xs[i] != xs[j]
  }

  predicate Injective<K, V(==)>(m: map<K, V>) {
    forall p, q :: p in m && q in m && p != q ==> m[p] != m[q]
  }

  /** Every task some registry refers to, i.e. every suspended waiter. */
  function RegisteredTasks(s: WaitState): set<TaskId> {
    Elements(s.waitList) + s.waitpidMap.Values
  }

  predicate Registered(s: WaitState, t: TaskId) {
    t in s.waitList || t in s.waitpidMap.Values
  }

  /**
   * What the reaper and the wait protocol keep true together:
   * a pid is never both cached and awaited by a targeted waiter, only reaped
   * (positive) pids are cached, targeted waiters wait for a concrete pid, and
   * every suspended coroutine sits in exactly one registry slot.
   */
  predicate Inv(s: WaitState) {
    && s.cache.Keys !! s.waitpidMap.Keys
    && (forall p :: p in s.cache ==> p > 0)
    && (forall p :: p in s.waitpidMap ==> p >= 0)
    && NoDup(s.waitList)
    && (forall p :: p in s.waitpidMap ==> s.waitpidMap[p] !in s.waitList)
    && Injective(s.waitpidMap)
  }

  lemma InitialInv()
    ensures Inv(Initial)
    ensures RegisteredTasks(Initial) == {}
  {
  }

  /** `swoole_coroutine_wait_count`: the number of outstanding wait requests. */
  function WaitCount(s: WaitState): (n: nat)
    ensures n == 0 <==> s.waitList == [] && s.waitpidMap == map[]
  {
    |s.waitList| + |s.waitpidMap|
  }

  /** The reactor exit condition installed by `signal_init`: the loop may stop only when nobody waits. */
  function CanExit(s: WaitState): bool {
    WaitCount(s) == 0
  }

  /** The exit condition holds exactly when no coroutine is suspended in a wait. */
  lemma CanExitIffNoWaiter(s: WaitState)
    ensures CanExit(s) <==> RegisteredTasks(s) == {}
  {
    if s.waitpidMap != map[] {
      var p := PickKey(s.waitpidMap);
      assert s.waitpidMap[p] in RegisteredTasks(s);
    } else if s.waitList != [] {
      assert s.waitList[0] in RegisteredTasks(s);
    } else {
      assert RegisteredTasks(s) == {};
    }
  }

  /** A key of a non-empty map. */
  lemma PickKey(m: map<Pid, TaskId>) returns (k: Pid)
    requires m != map[]
    ensures k in m
  {
    if forall q :: q !in m {
      assert false;
    }
    k :| k in m;
  }

  /** The key under which a value of a map is stored. */
  lemma KeyOfValue(m: map<Pid, TaskId>, t: TaskId) returns (p: Pid)
    requires t in m.Values
    ensures p in m && m[p] == t
  {
    if forall q :: q in m ==> m[q] != t {
      assert false;
    }
    p :| p in m && m[p] == t;
  }

  /** `std::list::remove`: drops every occurrence of `x`, keeping the others in order. */
  function RemoveAll(xs: seq<TaskId>, x: TaskId): (r: seq<TaskId>)
    ensures x !in r
    ensures forall y :: y != x ==> (y in r <==> y in xs)
    ensures |r| <= |xs|
    ensures x !in xs ==> r == xs
  {
    if |xs| == 0 then []
    else if xs[0] == x then RemoveAll(xs[1..], x)
    else [xs[0]] + RemoveAll(xs[1..], x)
  }

  /** On a list without duplicates, removal by identity removes exactly the one position holding the task. */
  lemma {:induction false} RemoveAllAtUniqueIndex(xs: seq<TaskId>, i: nat)
    requires NoDup(xs)
    requires i < |xs|
    ensures RemoveAll(xs, xs[i]) == xs[..i] + xs[i + 1..]
  {
    if i == 0 {
      assert xs[0] !in xs[1..] by {
        forall j | 0 <= j < |xs[1..]|
          ensures xs[1..][j] != xs[0]
        {
          assert xs[1..][j] == xs[j + 1];
        }
      }
      assert xs[..0] + xs[1..] == xs[1..];
    } else {
      var tail := xs[1..];
      assert NoDup(tail) by {
        forall a, b | 0 <= a < b < |tail|
          ensures tail[a] != tail[b]
        {
          assert tail[a] == xs[a + 1] && tail[b] == xs[b + 1];
        }
      }
      assert tail[i - 1] == xs[i];
      RemoveAllAtUniqueIndex(tail, i - 1);
      assert xs[0] != xs[i];
      assert [xs[0]] + (tail[..i - 1] + tail[i..]) == xs[..i] + xs[i + 1..];
    }
  }

  /** Popping the front of a duplicate-free list is the same as removing its front task by identity. */
  lemma PopFrontIsRemoveFront(xs: seq<TaskId>)
    requires NoDup(xs)
    requires xs != []
    ensures RemoveAll(xs, xs[0]) == xs[1..]
  {
    RemoveAllAtUniqueIndex(xs, 0);
    assert xs[..0] + xs[1..] == xs[1..];
  }

  lemma {:induction false} RemoveAllKeepsNoDup(xs: seq<TaskId>, x: TaskId)
    requires NoDup(xs)
    ensures NoDup(RemoveAll(xs, x))
  {
    if x in xs {
      var i :| 0 <= i < |xs| && xs[i] == x;
      RemoveAllAtUniqueIndex(xs, i);
      var r := xs[..i] + xs[i + 1..];
      forall a, b | 0 <= a < b < |r|
        ensures r[a] != r[b]
      {
        var a' := if a < i then a else a + 1;
        var b' := if b < i then b else b + 1;
        assert r[a] == xs[a'] && r[b] == xs[b'];
      }
    }
  }

  /**
   * The dequeue a resumed waiter performs (wait.cc lines 157-166): a wildcard
   * waiter that received a child pops the front of `wait_list`, one that did not
   * (timeout) removes itself by identity, and a targeted waiter erases its pid key.
   */
  function Dequeue(s: WaitState, target: Pid, task: TaskId, resultPid: Pid): (r: WaitState)
    requires target < 0 && resultPid > 0 ==> s.waitList != []
    ensures r.cache == s.cache && r.signalReady == s.signalReady
    ensures target >= 0 ==> r.waitList == s.waitList
    ensures target >= 0 ==> target !in r.waitpidMap && r.waitpidMap.Keys == s.waitpidMap.Keys - {target}
    ensures target >= 0 ==> forall p :: p in r.waitpidMap ==> r.waitpidMap[p] == s.waitpidMap[p]
    ensures target < 0 ==> r.waitpidMap == s.waitpidMap
    ensures target < 0 && resultPid > 0 ==> |r.waitList| == |s.waitList| - 1
    ensures target < 0 && resultPid > 0 ==> forall i :: 0 <= i < |r.waitList| ==> r.waitList[i] == s.waitList[i + 1]
    ensures target < 0 && resultPid <= 0 ==> task !in r.waitList
    ensures target < 0 && resultPid <= 0 ==> forall y :: y != task ==> (y in r.waitList <==> y in s.waitList)
  {
    if target < 0 then
      if resultPid > 0 then s.(waitList := s.waitList[1..])
      else s.(waitList := RemoveAll(s.waitList, task))
    else
      s.(waitpidMap := s.waitpidMap - {target})
  }

  function Elements(xs: seq<TaskId>): set<TaskId> {
    set t | t in xs
  }

  lemma {:induction false} NoDupCardinality(xs: seq<TaskId>)
    requires NoDup(xs)
    ensures |Elements(xs)| == |xs|
  {
    if xs != [] {
      var tail := xs[1..];
      assert NoDup(tail) by {
        forall a, b | 0 <= a < b < |tail|
          ensures tail[a] != tail[b]
        {
          assert tail[a] == xs[a + 1] && tail[b] == xs[b + 1];
        }
      }
      NoDupCardinality(tail);
      assert xs[0] !in Elements(tail) by {
        forall j | 0 <= j < |tail|
          ensures tail[j] != xs[0]
        {
          assert tail[j] == xs[j + 1];
        }
      }
      assert Elements(xs) == Elements(tail) + {xs[0]} by {
        assert xs == [xs[0]] + tail;
      }
    }
  }

  lemma {:induction false} InjectiveValuesCardinality(m: map<Pid, TaskId>)
    requires Injective(m)
    ensures |m.Values| == |m.Keys|
    decreases |m.Keys|
  {
    if m != map[] {
      var k := PickKey(m);
      var m' := m - {k};
      assert Injective(m');
      InjectiveValuesCardinality(m');
      assert m[k] !in m'.Values by {
        if m[k] in m'.Values {
          var q := KeyOfValue(m', m[k]);
        }
      }
      assert m.Values == m'.Values + {m[k]} by {
        forall t | t in m.Values
          ensures t in m'.Values + {m[k]}
        {
          var q := KeyOfValue(m, t);
          if q != k {
            assert m'[q] == t;
          }
        }
      }
      assert m.Keys == m'.Keys + {k};
    }
  }

  /** Under the invariant the wait count is exactly the number of suspended waiters. */
  lemma WaitCountIsSuspendedWaiters(s: WaitState)
    requires Inv(s)
    ensures WaitCount(s) == |RegisteredTasks(s)|
  {
    var listed := Elements(s.waitList);
    NoDupCardinality(s.waitList);
    InjectiveValuesCardinality(s.waitpidMap);
    assert listed * s.waitpidMap.Values == {} by {
      forall t | t in s.waitpidMap.Values
        ensures t !in listed
      {
        var p := KeyOfValue(s.waitpidMap, t);
      }
    }
    assert |listed + s.waitpidMap.Values| == |listed| + |s.waitpidMap.Values|;
  }
}

=== FILE: wrappers.dfy ===
/** Failure-compatible Option and Result datatypes shared by the rest of the model. */
module Wrappers {

  datatype Option<+T> = None | Some(value: T) {

    predicate IsFailure() {
      None?
    }

    function PropagateFailure<U>(): Option<U>
      requires None?
    {
      None
    }

    function Extract(): T
      requires Some?
    {
      value
    }
  }

  datatype Result<+R, +E> = Success(value: R) | Failure(error: E) {

    predicate IsFailure() {
      Failure?
    }

    function PropagateFailure<U>(): Result<U, E>
      requires Failure?
    {
      Failure(error)
    }

    function Extract(): R
      requires Success?
    {
      value
    }
  }
}
